=== FILE: README.md ===
# Chat-driven inventory assistant: router and inventory commands

This project is a Dafny model of the core of a small shop assistant. A shop owner
sends a WhatsApp message such as "Niuze mkate 2". A language model classifies the
message into a one-line command such as `SELL|Bread|2`, `ADD|Sugar|10` or
`CHECK|Rice`, or into `UNKNOWN`. The webhook `whatsapp_reply` splits that command
on `|`, reads the quantity with Python's `int()`, and dispatches on the exact
action token to one of three commands. Each command talks to an Odoo backend over
XML-RPC:

- `search_product` looks the item up and describes it;
- `make_sale` creates one sale order for the first customer, with one line for the
  product, confirms it, and reports the remaining balance;
- `add_stock` raises the counted quantity of the first stock quant of the product
  at the first internal location, or creates one, then applies the count and
  reports the new balance.

The reply text is wrapped in the `<Response><Message>…</Message></Response>`
envelope the messaging gateway expects, without XML escaping, as the code does.

The model has six modules:

- `Wrappers`: `Option` and `Result`.
- `Text`: Python's `str.split` with a one-character separator and its inverse
  `join`, `str.strip` with Python's whitespace, and the case-insensitive substring
  test behind `ilike`.
- `Numerals`: `str(n)` and `int(s)` for base-10 integers, including signs,
  surrounding whitespace (the set `int()` skips, which leaves out the four
  separators U+001C..U+001F that `str.strip` drops), single underscores between
  digits and CPython's limit
  of 4300 digits on a decimal conversion.
- `Backend`: the backend's tables as a value (`Store`); every remote call the
  commands issue as a `Call`; what the backend answers and how its tables change
  (`Exec`). The class `Odoo` keeps the same tables as fields that `Execute`
  updates in place, plus a log of every call issued. A call that `Store.faults`
  lists fails with that fault. A fault is one of three kinds:
  - one the backend reports (`xmlrpc.client.Fault`). Usually the backend rolled
    the request back and nothing changed. But the fault may also come after the
    backend committed the call: a method that returns `None`, such as
    `action_apply_inventory`, is carried out and committed, and only then does
    the server fail to encode the `None` reply. The fault records which of the
    two happened;
  - a transport failure before the request reached the backend, which changed
    nothing either;
  - a reply lost after the backend committed, so the call took effect although
    the caller sees an exception.

  A call that fails with a committed fault took effect all the same. A call
  carrying an integer outside the 32-bit range XML-RPC can encode fails on the
  client side with "int exceeds XML-RPC limits" and never reaches the backend.
- `Inventory`: the lookup `find_product_id` and the three commands, as methods on
  an `Odoo` object. Each command also has a function of the backend state
  (`CheckRun`, `SaleRun`, `RestockRun`) giving the calls issued, the tables
  afterwards and the reply. The methods are proved to follow these functions, and
  the lemmas state what the commands promise in terms of them.
- `Router`: the router's decision on an intent string (`RouteOf`), the dispatch
  (`Dispatch`), the handler `WhatsappReply`, the response envelope, and the
  command formats the classifier is told to produce.

`make_sale` and `add_stock` are each one method that calls one method per stage
(`SellFound`, `PlaceOrder`, `ReportSale`; `StockFound`, `StockAt`, `Recount`,
`NewCount`, `ApplyCount`). Every stage issues the same calls in the same order as
the source, with the same failure handling.

Where the documented intent and the code disagree, the model follows the code:

- A quantity segment that `int()` rejects (`SELL|Bread|two`) raises `ValueError`
  in `whatsapp_reply`, outside any handler. The request therefore fails without a
  reply, and nothing is called on the backend. The model returns
  `Err(InvalidQuantity(segment))` for it, not a clarification message.
- A command without a quantity segment gets quantity 0 whatever its action,
  including `SELL` and `ADD`.
- `search_product` reports a failure as the bare exception text, with no prefix.

## Model

| member | source | states |
|---|---|---|
| `Text.Split` | backend/main.py:147 | `split` gives at least one piece, and more than one exactly when the separator occurs in the text |
| `Text.JoinSplit` | backend/main.py:147 | joining the pieces of a split with the separator gives back the original text |
| `Text.SplitPiecesFree` | backend/main.py:147 | no piece of a split contains the separator |
| `Text.SplitWhole` | backend/main.py:146-147 | text without the separator splits into itself alone |
| `Text.SplitAtFirst` | backend/main.py:147-148 | the first piece is exactly the text before the first separator, and the rest is the split of what follows |
| `Text.SplitJoin` | backend/main.py:147 | separator-free pieces, joined and split again, give back the same pieces |
| `Text.Strip` | backend/main.py:62 | the stripped text is no longer than the input and neither starts nor ends with whitespace |
| `Text.StripDropsOnlySpace` | backend/main.py:62 | `strip` keeps one contiguous slice of its input, in place and in order, and everything before and after that slice is whitespace |
| `Text.StripKeeps` | backend/main.py:62 | text with no whitespace at either end is left unchanged |
| `Text.IsInfixAt` | backend/main.py:71-72 | the substring test behind `ilike` holds exactly when the pattern sits at some offset of the name |
| `Text.LowerAllTwice` | backend/main.py:71-72 | lower-casing a name twice gives the same text as lower-casing it once |
| `Text.IlikeIgnoresCase` | backend/main.py:71-72 | the `ilike` name filter matches exactly when the lower-cased pattern sits at some offset of the lower-cased name, and lower-casing either side beforehand changes nothing |
| `Numerals.IntToString` | backend/main.py:101 | `str(n)` is never empty and starts with a minus sign exactly when `n` is negative |
| `Numerals.NatToString` | backend/main.py:101 | `str(n)` of a non-negative number is a non-empty run of digits without a leading zero |
| `Numerals.NatToStringValue` | backend/main.py:101 | reading back the digits `str(n)` writes gives `n` |
| `Numerals.DropUnderscores` | backend/main.py:152 | removing the underscores of a digit group leaves only digits, and changes nothing in a run of digits |
| `Numerals.IntStrip` | backend/main.py:152 | the text `int()` parses is no longer than its input and neither starts nor ends with whitespace `int()` skips |
| `Numerals.IntStripDropsOnlySpace` | backend/main.py:152 | `int()` keeps one contiguous slice of its input, in place and in order, and drops only whitespace it skips before and after it |
| `Numerals.ParseInt` | backend/main.py:152 | `int()`: drop the whitespace it skips, refuse more than 4300 digits, then one optional sign and a digit group; `None` is the `ValueError`. Its properties are the lemmas below |
| `Numerals.DigitCount` | backend/main.py:152 | the number of digits the limit counts is never more than the length of the text |
| `Numerals.AllDigitsCount` | backend/main.py:152 | in a run of digits every character counts toward the limit |
| `Numerals.WithinLimitSigned` | backend/main.py:152 | stripped text within the digit limit is read by the sign-and-digits rule alone |
| `Numerals.ParseDigits` | backend/main.py:152 | `int()` reads a plain run of at most 4300 digits as its value |
| `Numerals.ParseNegativeDigits` | backend/main.py:152 | `int()` reads a minus sign followed by at most 4300 digits as the negated value |
| `Numerals.TooManyDigitsFail` | backend/main.py:152 | `int()` rejects a run of more than 4300 digits, with or without a minus sign |
| `Numerals.IntToStringRoundTrip` | backend/main.py:152 | `int(str(n)) == n` for every integer `n` of at most 4300 digits |
| `Numerals.SignedAlphabet` | backend/main.py:152 | text the sign-and-digits rule accepts holds only signs, digits and underscores |
| `Numerals.ParseIntAlphabet` | backend/main.py:152 | `int()` rejects any text holding a character other than whitespace it skips, a sign, a digit or an underscore |
| `Numerals.SeparatorRejected` | backend/main.py:152 | `int()` rejects any text holding one of U+001C..U+001F, even at either end, where `str.strip` would drop it |
| `Backend.MatchingProducts` | backend/main.py:71-72 | the name search returns no more ids than there are products |
| `Backend.QuantsAt` | backend/main.py:112 | the quant search returns no more ids than there are quants |
| `Backend.Exec` | backend/main.py:71-72 | one `execute_kw` call: an integer argument out of the XML-RPC range fails on the client, a listed fault is raised, otherwise the call takes its effect. Its properties are stated by `ExecAnswers` |
| `Backend.ExecAnswers` | backend/main.py:71-72 | a remote call fails exactly when an integer argument is out of the XML-RPC range or a fault is listed for it; an out-of-range call fails with "int exceeds XML-RPC limits" and changes nothing; a transport fault or a reported fault with a rollback changes nothing; a lost reply or a reported fault raised after the commit leaves the call's effect in place; otherwise the call gets the answer of its kind |
| `Backend.ReadsChangeNothing` | backend/main.py:80-81 | searches and reads never change the backend's tables |
| `Backend.ExecWellFormed` | backend/main.py:93-124 | every call, creates included, keeps record ids unique and below the next id to hand out |
| `Backend.ReadFindsProduct` | backend/main.py:80-81 | with unique ids, reading a product's id returns exactly that product |
| `Backend.NoProductWithId` | backend/main.py:80-81 | reading an id no product has returns no rows |
| `Backend.ReadFindsQuant` | backend/main.py:116 | with unique ids, reading a quant returns exactly its quantity field |
| `Backend.NoQuantWithId` | backend/main.py:116 | reading an id no quant has returns no rows |
| `Backend.ConfirmNewOrder` | backend/main.py:97 | confirming the order just created flips that order to confirmed and no other |
| `Backend.SetCountAt` | backend/main.py:118 | writing a quant's count changes that quant only: its counted quantity becomes the amount and it is no longer applied |
| `Backend.MarkAppliedAt` | backend/main.py:128 | applying a quant's count marks that quant applied and changes no other |
| `Backend.QuantSearchFirst` | backend/main.py:112 | the quant search lists the first quant of the product at the location first |
| `Backend.QuantSearchEmpty` | backend/main.py:112-114 | the quant search comes back empty exactly when no quant of the product sits at the location |
| `Backend.FirstQuantExists` | backend/main.py:112-124 | either some quant is the first at that place or none is there at all, so the two branches of `add_stock` cover every case |
| `Backend.Odoo.constructor` | backend/main.py:77 | the connection starts from well-formed tables with an empty log |
| `Backend.Odoo.Execute` | backend/main.py:71-72 | one `execute_kw` call: the tables and the answer are what `Exec` gives, the call is appended to the log, and well-formed tables stay well-formed |
| `Inventory.LookupPicksFirst` | backend/main.py:69-73 | the lookup result is present exactly when the search returned ids and is then the first id, so it is the id of the first product whose name matches, never a later one |
| `Inventory.LookupFindsNothing` | backend/main.py:69-73 | the lookup returns nothing exactly when no product name matches |
| `Inventory.FirstMatchExists` | backend/main.py:69-73 | either some product is the first match or none matches at all |
| `Inventory.FindProductId` | backend/main.py:69-73 | one name search is issued and logged and the tables stay as they were; a failed search is an error; otherwise the result is the first matching id, nothing only when no name matches |
| `Inventory.CheckRun` | backend/main.py:75-84 | the calls, tables and reply of `search_product` as a function of the backend state; its properties are stated by `SearchProduct`, `CheckIsReadOnly`, `CheckTwice` and `ReplyIgnoresLog` |
| `Inventory.SaleRun` | backend/main.py:86-102 | the calls, tables and reply of `make_sale`, one step per remote call, each failure ending in a "Sale Error" reply; its properties are stated by `MakeSale` and the `Sale…` lemmas |
| `Inventory.RestockRun` | backend/main.py:104-134 | the calls, tables and reply of `add_stock`, one step per remote call, a backend-reported fault on apply swallowed and any other failure ending in a "Restock Error" reply; its properties are stated by `AddStock` and the `Restock…` lemmas |
| `Inventory.OrZero` | backend/main.py:117 | `quantity or 0`: a missing quantity counts as 0; its use is stated by `CountWritten` |
| `Inventory.SearchProduct` | backend/main.py:75-84 | the reply, tables and log are those `CheckRun` gives, and the tables are unchanged |
| `Inventory.MakeSale` | backend/main.py:86-102 | the reply, tables and log are those `SaleRun` gives from the start; well-formed tables stay well-formed |
| `Inventory.SellFound` | backend/main.py:92-93 | after the lookup: the customer search, failing with an index error when there is no customer, then the order |
| `Inventory.PlaceOrder` | backend/main.py:93-97 | order header, order line and confirmation in that order, the first failure ending the sale with a "Sale Error" reply |
| `Inventory.ReportSale` | backend/main.py:99-101 | the balance read and the sale report |
| `Inventory.AddStock` | backend/main.py:104-134 | the reply, tables and log are those `RestockRun` gives from the start; well-formed tables stay well-formed |
| `Inventory.StockFound` | backend/main.py:110-112 | the internal-location search, failing with an index error when there is none |
| `Inventory.StockAt` | backend/main.py:112-124 | the quant search, then recount of the first quant found or creation of a new one |
| `Inventory.Recount` | backend/main.py:114-121 | read the quant's quantity, write that quantity (or 0) plus the requested amount as its count, then apply |
| `Inventory.NewCount` | backend/main.py:122-124 | create a quant counting the requested amount, then apply |
| `Inventory.ApplyCount` | backend/main.py:126-133 | apply the count, swallowing a backend-reported fault only, then read and report the balance |
| `Inventory.CheckIsReadOnly` | backend/main.py:75-84 | a lookup leaves the tables as they were and issues no create, write or action call |
| `Inventory.CheckTwice` | backend/main.py:75-84 | looking the same item up twice gives the same reply and still changes nothing |
| `Inventory.ReplyIgnoresLog` | backend/main.py:75-84 | what a lookup replies and leaves behind does not depend on the calls issued before it |
| `Inventory.NotFoundTouchesNothing` | backend/main.py:75-108 | an item that names no product gets the "not found" reply from all three commands, after only the login and the one search |
| `Inventory.SaleRecordsOrder` | backend/main.py:86-101 | with no failure and a quantity within the XML-RPC integer range, a sale adds one confirmed order for the first customer and one line for the product and quantity, changes nothing else, issues exactly the seven calls in order, and reports the product's balance |
| `Inventory.SaleWithoutCustomer` | backend/main.py:92-93 | with no customer, indexing the empty search result fails before anything is created |
| `Inventory.SaleLeavesUnconfirmedOrder` | backend/main.py:93-102 | a failed confirmation is reported as a "Sale Error" and nothing is undone: the order and its line stay, and the order is confirmed exactly when the backend committed the confirmation before the failure (a lost reply or a fault raised after the commit) |
| `Inventory.SaleQuantityOutOfRange` | backend/main.py:93-102 | a quantity outside the XML-RPC integer range fails the order line on the client after the order header was created: the header stays, unconfirmed, without a line, and the reply is "Sale Error: int exceeds XML-RPC limits" |
| `Inventory.SaleReplies` | backend/main.py:86-102 | `make_sale` never lets a failure escape: the reply is "not found", the sale report, or "Sale Error: " with the index error, the XML-RPC limit text or a raised fault's text |
| `Inventory.SaleTouchesOnlySales` | backend/main.py:86-102 | a sale changes only the orders, the order lines and the id counter, whatever fails |
| `Inventory.RestockReachesLocation` | backend/main.py:105-112 | with the product found and an internal location, `add_stock` reaches the quant search at the first location after exactly three calls |
| `Inventory.RecountFacts` | backend/main.py:112-118 | with unique ids, the search finds the first quant at the place first, its read returns its quantity, and the write changes that quant only |
| `Inventory.RecountHop` | backend/main.py:112-121 | from the quant search on, while the search, read and write succeed, the first quant at the place gets "quantity (or 0) plus the requested amount" as its count, unapplied, before the apply step |
| `Inventory.RecountAt` | backend/main.py:112-121 | with a quant at the place, the quant it finds first is read and gets "quantity (or 0) plus the requested amount" as its count before the apply step |
| `Inventory.QuantFoundAt` | backend/main.py:112-114 | the quant the search finds first is the one recounted |
| `Inventory.CountWritten` | backend/main.py:116-118 | a recount reads the quantity and writes back that quantity (or 0) plus the requested amount |
| `Inventory.RestockCreateStep` | backend/main.py:122-124 | with no quant at the place, one quant is created there counting the requested amount, before the apply step |
| `Inventory.RestockApplyStep` | backend/main.py:126-133 | the apply step marks the quant applied, or leaves it as it was when the backend reports a fault and rolled back, and the balance is still read and reported |
| `Inventory.ApplyFaultStep` | backend/main.py:126-133 | a fault the backend reports on applying an unapplied quant is swallowed: the quant ends up applied exactly when the backend committed the apply, and the balance is still read and reported |
| `Inventory.RecountKeepsIds` | backend/main.py:118 | writing a new count keeps quant ids unique |
| `Inventory.RestockRecountFrom` | backend/main.py:112-133 | from the quant search, with no failure: the first quant there is recounted and applied, and the balance is reported |
| `Inventory.RestockRecountsFirstQuant` | backend/main.py:104-133 | with no failure and a quant at the first internal location, the first such quant and no other gets "quantity (or 0) plus the requested amount", applied; the eight calls are issued in order and the balance is reported |
| `Inventory.RestockApplyFaultFrom` | backend/main.py:112-133 | from the quant search, with a fault the backend reports on apply: the count stays written, applied exactly when the backend committed the apply before the fault, and the balance is reported |
| `Inventory.RestockSwallowsApplyFault` | backend/main.py:126-133 | a fault the backend reports on apply is swallowed: the count stays written, applied exactly when the backend committed the apply before the fault, and the balance is still read and reported |
| `Inventory.RestockCreatesQuant` | backend/main.py:122-133 | with no failure, a quantity within the XML-RPC integer range and no quant at the first internal location, exactly one quant is created there counting the requested amount, and applied |
| `Inventory.RestockTransportFaultFrom` | backend/main.py:112-134 | from the quant search, any failure on apply other than a backend-reported fault ends the command with a "Restock Error" reply; the count stays written, and it is applied only when the backend committed and the reply was lost |
| `Inventory.RestockApplyTransportFault` | backend/main.py:126-134 | only a backend-reported fault is swallowed on apply: any other failure there ends the command with a "Restock Error" reply; the count stays written, and it is applied only when the backend committed and the reply was lost |
| `Inventory.RestockQuantityOutOfRange` | backend/main.py:122-134 | with no quant at the place, a quantity outside the XML-RPC integer range fails the quant creation on the client: nothing changes and the reply is "Restock Error: int exceeds XML-RPC limits" |
| `Inventory.RestockWithoutLocation` | backend/main.py:111-112 | with no internal location, indexing the empty search result fails before any quant is touched |
| `Inventory.RestockTouchesOnlyStock` | backend/main.py:104-134 | a restock changes only the stock quants and the id counter, whatever fails |
| `Inventory.RecountTouchesOnlyStock` | backend/main.py:114-121 | recounting an existing quant changes only the stock quants |
| `Inventory.NewCountTouchesOnlyStock` | backend/main.py:122-124 | creating a quant changes only the stock quants and the id counter |
| `Inventory.ApplyTouchesOnlyStock` | backend/main.py:126-133 | the apply step changes only the stock quants |
| `Inventory.RestockReplies` | backend/main.py:104-134 | `add_stock` never lets a failure escape: the reply is "not found", the restock report, or "Restock Error: " with the index error or a raised fault's text |
| `Inventory.CountReplies` | backend/main.py:114-134 | the same, from the quant read or creation on |
| `Inventory.RecountReplies` | backend/main.py:114-121 | the same, for the recount of an existing quant |
| `Inventory.CreateReplies` | backend/main.py:122-124 | the same, for the creation of a new quant |
| `Inventory.ApplyReplies` | backend/main.py:126-134 | the same, for the apply step and the balance read |
| `Router.IntentOf` | backend/main.py:53-65 | the intent is `UNKNOWN` when the classifier call failed, otherwise the answer stripped, never longer than the answer |
| `Router.RouteOf` | backend/main.py:146-152 | an intent is no command exactly when it has no `\|`; it is an error only when `int()` rejects its third segment |
| `Router.Dispatch` | backend/main.py:154-161 | a lookup, an unknown action or no command leaves the tables unchanged, and an unknown action or no command calls nothing |
| `Router.Decide` | backend/main.py:154-161 | every action token leads to one of the three commands or to the "not the action" reply |
| `Router.Envelope` | backend/main.py:166 | the body is the reply text, unchanged, between the 19-character opening tags and the 21-character closing tags |
| `Router.WhatsappReply` | backend/main.py:138-166 | a rejected quantity is an error with nothing called; otherwise the body is the envelope around the reply, and the tables and log are those of the command `RouteOf` picks |
| `Router.Perform` | backend/main.py:154-161 | the dispatch on the action token: the reply, tables and log are those of the command `Decide` picks |
| `Router.ClassifierFailureIsNoCommand` | backend/main.py:62-65 | a failed classifier call, or the answer `UNKNOWN`, leads to the "Sorry" reply |
| `Router.NoSeparatorNoCall` | backend/main.py:146-163 | an intent becomes a command exactly when it contains `\|`; without one the reply is the "Sorry" text and nothing is called |
| `Router.CommandsKeepToTheirTables` | backend/main.py:154-163 | selling touches only orders and lines, restocking only quants, and checking or any non-command reply touches nothing |
| `Router.DecideIsExact` | backend/main.py:154-161 | the action table matches `SELL`, `ADD` and `CHECK` exactly and case-sensitively, and any other action calls nothing |
| `Router.RouteFields` | backend/main.py:147-152 | the action is the first field and the item the second; the quantity is `int()` of the third when there is one and 0 otherwise; a third field `int()` rejects is an error whatever the action |
| `Router.RouteIgnoresExtraSegments` | backend/main.py:147-152 | segments after the third do not change the outcome |
| `Router.RouteFormat` | backend/main.py:43-45 | a command written in one of the three formats the classifier is told to produce, with a quantity of at most 4300 digits, is routed to exactly that command |
| `Router.RouteCommand` | backend/main.py:43-44 | three fields whose third is a written quantity of at most 4300 digits route on their action with that quantity |
| `Router.QuantityRoundTrip` | backend/main.py:152 | a written quantity of at most 4300 digits has no `\|` in it and `int()` reads it back as itself |
| `Router.LongQuantityFails` | backend/main.py:152 | a quantity field of more than 4300 digits, signed or not, is an error whatever the action |
| `Router.NonNumeralQuantityFails` | backend/main.py:152 | a quantity field with a character outside the numeral alphabet (a spelled-out number such as `two`, or a separator U+001C..U+001F next to the digits) is an error |

## Left out

- The web layer (FastAPI, the form field, the XML media type) and the `print`
  calls are left out. `WhatsappReply` takes the classifier's answer and returns
  the response body.
- The call to the language model is left out. Its outcome is a parameter: `None`
  when the call raised, otherwise the message content. The system prompt is
  modelled only through the three command formats (`Router.Format`).
- `get_odoo_models`: the credentials, the environment configuration, the server
  proxies and the user id are left out. The `authenticate` call is the
  `Authenticate` call, which can fail like any other.
- What the backend does inside its own actions is left uninterpreted. Confirming
  an order only marks it confirmed, and applying a count only marks the quant
  applied. The forecast balance and the list price are opaque values read back,
  never recomputed.
- Floating-point quantities and prices are left out: quantities are integers, and
  prices and balances are their printed text.
- `ilike` is modelled as an ASCII case-insensitive substring test. Unicode case
  folding and the `%`/`_` wildcards are left out.
- `int()` accepts only ASCII digits in the model; the non-ASCII decimal digits
  Python also accepts are left out.
- The order of search results is the order of the tables in `Store`. The
  backend's own default ordering is left out.
- Concurrency is left out. Two requests racing on the same quant are not
  modelled; each request runs alone against one backend state.
- The exact text of exceptions other than the empty-list `IndexError` is the
  fault's `text`, whatever it is; how Python renders each exception is left out.
- Failures are fixed per backend state: `Store.faults` says once and for all
  which call fails and how. A failure that comes and goes between two identical
  calls is left out, so `Inventory.CheckTwice` gives the same reply twice only
  under that assumption.
- Record ids come from one counter shared by orders, order lines and quants, so
  in `Inventory.SaleRecordsOrder` the line's id is the order's id plus one.
  The backend numbers each table on its own; only that each new id is fresh is
  meant.
- Record ids are assumed to lie within the 32-bit range XML-RPC can encode; only
  the quantities the user supplies are checked against that range.
- Inventory.CountWritten: the written count is not checked against the XML-RPC
  integer range. The backend's quantity is a float, so the sum is sent as a
  float and has no such limit. When the stored quantity is 0, Python sends the
  requested integer itself, and one outside the range would fail on the client;
  that case is not modelled.
- The 4300-digit limit is CPython's default (`sys.int_info.default_max_str_digits`,
  since Python 3.11 and the security releases of 2022); older interpreters and
  a changed limit are left out. `str(n)` is not limited in the model: every
  quantity it prints was read by `int()` within the same limit.
- backend/test_connection.py is not part of this model.
- Router.IntentOf: states only that the intent is no longer than the answer; what
  the answer becomes is stated by `Router.ClassifierFailureIsNoCommand` and
  `Text.Strip`.

=== FILE: backend.dfy ===
/**
 * The remote business backend, as far as the inventory commands can see it:
 * the products, the customers, the internal stock locations, the on-hand
 * quantity records ("quants"), the sale orders and their lines. Every remote
 * procedure call the commands issue is one `Call`; `Exec` says what the
 * backend answers and how its tables change, and the class `Odoo` holds the
 * same tables as fields that `Execute` updates in place, together with the log
 * of every call issued.
 *
 * What the backend does inside its own actions stays uninterpreted:
 * confirming an order only marks it confirmed, applying an inventory count
 * only marks the quant applied, and the forecast balance and the list price
 * of a product are opaque values that are read back, never recomputed.
 */
module Backend {
  import opened Wrappers
  import opened Text

  /** A record id. The backend's ids are positive, so a found id is never falsy. */
  type Id = x: int | x > 0 witness 1

  /** A floating-point field as the reply text shows it; computed by the backend. */
  type Shown = string

  datatype Product = Product(id: Id, name: string, listPrice: Shown, virtualAvailable: Shown)

  /**
   * An on-hand quantity record for one product at one location. `quantity`
   * is `None` when the field reads as empty; `inventoryQuantity` is the
   * counted quantity waiting to be applied; `applied` says whether the
   * apply action has run since the count was last set.
   */
  datatype Quant = Quant(
    id: Id, product: Id, location: Id,
    quantity: Option<int>, inventoryQuantity: int, applied: bool)

  datatype Order = Order(id: Id, partner: Id, confirmed: bool)

  datatype OrderLine = OrderLine(id: Id, order: Id, product: Id, quantity: int)

  /**
   * Why a call failed, with `text` what `str(e)` gives:
   * - `RpcFault`: the backend reports a fault (an `xmlrpc.client.Fault`).
   *   Usually the backend rolled the request back and nothing changed
   *   (`committed` false). But a fault can also come after the backend
   *   committed the call: a method that returns `None` is carried out and
   *   committed, and only then does the server fail to encode the `None`
   *   reply (`committed` true);
   * - `TransportFault`: any other exception before the request reaches the
   *   backend (a refused connection, a value the client cannot marshal);
   *   nothing changes;
   * - `ReplyLost`: the backend carried the call out and committed it, but the
   *   reply never arrived (a timeout, a dropped connection).
   */
  datatype Fault = RpcFault(text: string, committed: bool) | TransportFault(text: string) | ReplyLost(text: string)

  /** The failed call took effect on the backend all the same. */
  predicate Committed(f: Fault) {
    f.ReplyLost? || (f.RpcFault? && f.committed)
  }

  /** One remote call, with the arguments the commands pass. */
  datatype Call =
    | Authenticate
    | SearchProducts(name: string)
    | ReadProduct(product: Id)
    | SearchPartners
    | CreateOrder(partner: Id)
    | CreateOrderLine(order: Id, product: Id, quantity: int)
    | ConfirmOrder(order: Id)
    | SearchInternalLocations
    | SearchQuants(product: Id, location: Id)
    | ReadQuant(quant: Id)
    | WriteQuant(quant: Id, inventoryQuantity: int)
    | CreateQuant(product: Id, location: Id, inventoryQuantity: int)
    | ApplyInventory(quant: Id)

  /** The calls that create, write or run an action on a record. */
  predicate Mutates(c: Call) {
    || c.CreateOrder? || c.CreateOrderLine? || c.ConfirmOrder?
    || c.WriteQuant? || c.CreateQuant? || c.ApplyInventory?
  }

  /** The range of an XML-RPC `<int>`: a signed 32-bit integer. */
  const MinXmlRpcInt := -0x8000_0000
  const MaxXmlRpcInt := 0x7FFF_FFFF

  predicate FitsXmlRpcInt(n: int) {
    MinXmlRpcInt <= n <= MaxXmlRpcInt
  }

  /** `str(e)` of the `OverflowError` the client raises for an `int` out of that range. */
  const IntLimitText := "int exceeds XML-RPC limits"

  /**
   * The client can marshal the call: every quantity it carries as an `int`
   * fits the XML-RPC range. Record ids are the backend's own 32-bit ids and
   * always fit.
   */
  predicate Sendable(c: Call) {
    match c
    case CreateOrderLine(_, _, quantity) => FitsXmlRpcInt(quantity)
    case CreateQuant(_, _, amount) => FitsXmlRpcInt(amount)
    case _ => true
  }

  /** What a call returns to the client. */
  datatype Response =
    | Raised(fault: Fault)
    | Done
    | Ids(ids: seq<Id>)
    | Created(id: Id)
    | ProductRows(rows: seq<Product>)
    | QuantityRows(quantities: seq<Option<int>>)

  /**
   * The backend's tables, each in the order its searches return records.
   * `faults` lists the calls that fail and how, the same way every time they are issued.
   */
  datatype Store = Store(
    products: seq<Product>,
    partners: seq<Id>,
    internalLocations: seq<Id>,
    quants: seq<Quant>,
    orders: seq<Order>,
    lines: seq<OrderLine>,
    nextId: Id,
    faults: map<Call, Fault>)

  /** No two products share an id. */
  predicate UniqueProductIds(ps: seq<Product>) {
    forall i, j :: 0 <= i < j < |ps| ==> ps[i].id != ps[j].id
  }

  /** No two quants share an id. */
  predicate UniqueQuantIds(qs: seq<Quant>) {
    forall i, j :: 0 <= i < j < |qs| ==> qs[i].id != qs[j].id
  }

  /** Record ids are unique, and every id handed out so far is below `nextId`. */
  predicate WellFormed(s: Store) {
    && UniqueProductIds(s.products)
    && UniqueQuantIds(s.quants)
    && (forall i :: 0 <= i < |s.quants| ==> s.quants[i].id < s.nextId)
    && (forall i :: 0 <= i < |s.orders| ==> s.orders[i].id < s.nextId)
    && (forall i :: 0 <= i < |s.lines| ==> s.lines[i].id < s.nextId)
  }

  /** Ids of the products whose name matches `pattern` under `ilike`, in table order. */
  function MatchingProducts(ps: seq<Product>, pattern: string): (ids: seq<Id>)
    ensures |ids| <= |ps|
    decreases |ps|
  {
    if ps == [] then []
    else
      var rest := MatchingProducts(ps[1..], pattern);
      if Ilike(ps[0].name, pattern) then [ps[0].id] + rest else rest
  }

  /** The rows a read of product `id` returns. */
  function ProductsWithId(ps: seq<Product>, id: Id): (rows: seq<Product>)
    ensures forall i :: 0 <= i < |rows| ==> rows[i].id == id
    decreases |ps|
  {
    if ps == [] then []
    else
      var rest := ProductsWithId(ps[1..], id);
      if ps[0].id == id then [ps[0]] + rest else rest
  }

  /** A search with `limit=1`. */
  function Limit1(ids: seq<Id>): seq<Id> {
    if |ids| == 0 then [] else [ids[0]]
  }

  predicate At(q: Quant, product: Id, location: Id) {
    q.product == product && q.location == location
  }

  /** Ids of the quants of `product` at `location`, in table order. */
  function QuantsAt(qs: seq<Quant>, product: Id, location: Id): (ids: seq<Id>)
    ensures |ids| <= |qs|
    decreases |qs|
  {
    if qs == [] then []
    else
      var rest := QuantsAt(qs[1..], product, location);
      if At(qs[0], product, location) then [qs[0].id] + rest else rest
  }

  /** The `quantity` field of each quant with id `id`. */
  function QuantitiesOf(qs: seq<Quant>, id: Id): (rows: seq<Option<int>>)
    decreases |qs|
  {
    if qs == [] then []
    else
      var rest := QuantitiesOf(qs[1..], id);
      if qs[0].id == id then [qs[0].quantity] + rest else rest
  }

  /** Writing `inventory_quantity` on quant `id`: the count is set and waits to be applied. */
  function SetCount(qs: seq<Quant>, id: Id, amount: int): (r: seq<Quant>)
    ensures |r| == |qs|
  {
    seq(|qs|, i requires 0 <= i < |qs| =>
      if qs[i].id == id then qs[i].(inventoryQuantity := amount, applied := false) else qs[i])
  }

  /** Applying the count of quant `id`; what that does to stock stays with the backend. */
  function MarkApplied(qs: seq<Quant>, id: Id): (r: seq<Quant>)
    ensures |r| == |qs|
  {
    seq(|qs|, i requires 0 <= i < |qs| =>
      if qs[i].id == id then qs[i].(applied := true) else qs[i])
  }

  /** Confirming order `id`; its downstream effects stay with the backend. */
  function MarkConfirmed(os: seq<Order>, id: Id): (r: seq<Order>)
    ensures |r| == |os|
  {
    seq(|os|, i requires 0 <= i < |os| =>
      if os[i].id == id then os[i].(confirmed := true) else os[i])
  }

  /** The kind of answer each call gives when it does not fail. */
  predicate Answers(c: Call, r: Response) {
    match c
    case Authenticate => r.Done?
    case ConfirmOrder(_) => r.Done?
    case WriteQuant(_, _) => r.Done?
    case ApplyInventory(_) => r.Done?
    case SearchProducts(_) => r.Ids?
    case SearchPartners => r.Ids?
    case SearchInternalLocations => r.Ids?
    case SearchQuants(_, _) => r.Ids?
    case ReadProduct(_) => r.ProductRows?
    case ReadQuant(_) => r.QuantityRows?
    case CreateOrder(_) => r.Created?
    case CreateOrderLine(_, _, _) => r.Created?
    case CreateQuant(_, _, _) => r.Created?
  }

  /**
   * One remote call: its answer and the backend's tables afterwards. A call
   * the client cannot marshal fails before it is sent. A call listed in
   * `faults` fails with that fault; it changes nothing, unless the fault is a
   * lost reply, when the backend's tables change as `Effect` says.
   */
  function Exec(s: Store, c: Call): (r: (Store, Response))
  {
    if !Sendable(c) then (s, Raised(TransportFault(IntLimitText)))
    else if c in s.faults then
      if Committed(s.faults[c]) then (Effect(s, c).0, Raised(s.faults[c])) else (s, Raised(s.faults[c]))
    else Effect(s, c)
  }

  /** What the backend does with a call it carries out, and what it answers. */
  function Effect(s: Store, c: Call): (r: (Store, Response))
  {
    match c
    case Authenticate => (s, Done)
    case SearchProducts(name) => (s, Ids(MatchingProducts(s.products, name)))
    case ReadProduct(id) => (s, ProductRows(ProductsWithId(s.products, id)))
    case SearchPartners => (s, Ids(Limit1(s.partners)))
    case CreateOrder(partner) =>
      (s.(orders := s.orders + [Order(s.nextId, partner, false)], nextId := s.nextId + 1),
       Created(s.nextId))
    case CreateOrderLine(order, product, qty) =>
      (s.(lines := s.lines + [OrderLine(s.nextId, order, product, qty)], nextId := s.nextId + 1),
       Created(s.nextId))
    case ConfirmOrder(order) => (s.(orders := MarkConfirmed(s.orders, order)), Done)
    case SearchInternalLocations => (s, Ids(Limit1(s.internalLocations)))
    case SearchQuants(product, location) => (s, Ids(QuantsAt(s.quants, product, location)))
    case ReadQuant(quant) => (s, QuantityRows(QuantitiesOf(s.quants, quant)))
    case WriteQuant(quant, amount) => (s.(quants := SetCount(s.quants, quant, amount)), Done)
    case CreateQuant(product, location, amount) =>
      (s.(quants := s.quants + [Quant(s.nextId, product, location, None, amount, false)],
          nextId := s.nextId + 1),
       Created(s.nextId))
    case ApplyInventory(quant) => (s.(quants := MarkApplied(s.quants, quant)), Done)
  }

  /**
   * A call fails exactly when the client cannot marshal it or a fault is
   * listed for it. A failed call changes nothing unless its reply was lost
   * after the backend carried it out; a call that goes through gets the
   * answer of its kind.
   */
  lemma ExecAnswers(s: Store, c: Call)
    ensures Exec(s, c).1.Raised? <==> !Sendable(c) || c in s.faults
    ensures !Sendable(c) ==> Exec(s, c) == (s, Raised(TransportFault(IntLimitText)))
    ensures Exec(s, c).1.Raised? && !Committed(Exec(s, c).1.fault) ==> Exec(s, c).0 == s
    ensures Exec(s, c).1.Raised? && Committed(Exec(s, c).1.fault) ==> Exec(s, c).0 == Effect(s, c).0
    ensures !Exec(s, c).1.Raised? ==> Answers(c, Exec(s, c).1)
  {
  }

  /** Searches and reads never change the backend. */
  lemma ReadsChangeNothing(s: Store, c: Call)
    requires !Mutates(c)
    ensures Exec(s, c).0 == s
  {
  }

  /** `t` differs from `s` at most in the sales tables: orders, order lines and the id counter. */
  predicate SalesOnly(s: Store, t: Store) {
    t == s.(orders := t.orders, lines := t.lines, nextId := t.nextId)
  }

  /** `t` differs from `s` at most in the stock quants and the id counter. */
  predicate StockOnly(s: Store, t: Store) {
    t == s.(quants := t.quants, nextId := t.nextId)
  }

  /** Every call keeps the backend's ids unique and below `nextId`. */
  lemma ExecWellFormed(s: Store, c: Call)
    requires WellFormed(s)
    ensures WellFormed(Exec(s, c).0)
  {
  }

  /** With unique ids, reading the product at index `k` returns exactly that product. */
  lemma {:induction false} ReadFindsProduct(ps: seq<Product>, k: int)
    requires 0 <= k < |ps|
    requires UniqueProductIds(ps)
    ensures ProductsWithId(ps, ps[k].id) == [ps[k]]
    decreases |ps|
  {
    if k == 0 {
      NoProductWithId(ps[1..], ps[0].id);
    } else {
      ReadFindsProduct(ps[1..], k - 1);
    }
  }

  lemma {:induction false} NoProductWithId(ps: seq<Product>, id: Id)
    requires forall i :: 0 <= i < |ps| ==> ps[i].id != id
    ensures ProductsWithId(ps, id) == []
    decreases |ps|
  {
    if ps != [] {
      NoProductWithId(ps[1..], id);
    }
  }

  /** With unique ids, reading the quant at index `k` returns exactly its quantity. */
  lemma {:induction false} ReadFindsQuant(qs: seq<Quant>, k: int)
    requires 0 <= k < |qs|
    requires UniqueQuantIds(qs)
    ensures QuantitiesOf(qs, qs[k].id) == [qs[k].quantity]
    decreases |qs|
  {
    if k == 0 {
      NoQuantWithId(qs[1..], qs[0].id);
    } else {
      ReadFindsQuant(qs[1..], k - 1);
    }
  }

  lemma {:induction false} NoQuantWithId(qs: seq<Quant>, id: Id)
    requires forall i :: 0 <= i < |qs| ==> qs[i].id != id
    ensures QuantitiesOf(qs, id) == []
    decreases |qs|
  {
    if qs != [] {
      NoQuantWithId(qs[1..], id);
    }
  }

  /** Confirming the order just appended flips that order and no other. */
  lemma ConfirmNewOrder(os: seq<Order>, o: Order)
    requires forall i :: 0 <= i < |os| ==> os[i].id < o.id
    ensures MarkConfirmed(os + [o], o.id) == os + [o.(confirmed := true)]
  {
    var r := MarkConfirmed(os + [o], o.id);
    forall i | 0 <= i < |os| + 1
      ensures r[i] == (os + [o.(confirmed := true)])[i]
    {
      if i < |os| {
        assert (os + [o])[i] == os[i];
      }
    }
  }

  /** With unique ids, setting the count of the quant at index `k` changes that quant only. */
  lemma SetCountAt(qs: seq<Quant>, k: int, amount: int)
    requires 0 <= k < |qs|
    requires UniqueQuantIds(qs)
    ensures SetCount(qs, qs[k].id, amount) == qs[k := qs[k].(inventoryQuantity := amount, applied := false)]
  {
    var r := SetCount(qs, qs[k].id, amount);
    forall i | 0 <= i < |qs| && i != k
      ensures r[i] == qs[i]
    {
      assert qs[i].id != qs[k].id by {
        if i < k {} else {}
      }
    }
  }

  /** With unique ids, applying the count of the quant at index `k` changes that quant only. */
  lemma MarkAppliedAt(qs: seq<Quant>, k: int)
    requires 0 <= k < |qs|
    requires UniqueQuantIds(qs)
    ensures MarkApplied(qs, qs[k].id) == qs[k := qs[k].(applied := true)]
  {
    var r := MarkApplied(qs, qs[k].id);
    forall i | 0 <= i < |qs| && i != k
      ensures r[i] == qs[i]
    {
      assert qs[i].id != qs[k].id by {
        if i < k {} else {}
      }
    }
  }

  /** `k` is the first quant of `product` at `location`. */
  predicate FirstQuantAt(qs: seq<Quant>, product: Id, location: Id, k: int) {
    0 <= k < |qs| && At(qs[k], product, location) &&
    forall j :: 0 <= j < k ==> !At(qs[j], product, location)
  }

  /** The quant search lists the first matching quant first. */
  lemma {:induction false} QuantSearchFirst(qs: seq<Quant>, product: Id, location: Id, k: int)
    requires FirstQuantAt(qs, product, location, k)
    ensures |QuantsAt(qs, product, location)| > 0
    ensures QuantsAt(qs, product, location)[0] == qs[k].id
    decreases |qs|
  {
    if k > 0 {
      QuantSearchFirst(qs[1..], product, location, k - 1);
    }
  }

  /** The quant search comes back empty exactly when no quant sits at that place. */
  lemma {:induction false} QuantSearchEmpty(qs: seq<Quant>, product: Id, location: Id)
    ensures QuantsAt(qs, product, location) == [] <==>
      forall j :: 0 <= j < |qs| ==> !At(qs[j], product, location)
    decreases |qs|
  {
    if qs != [] {
      QuantSearchEmpty(qs[1..], product, location);
      if !At(qs[0], product, location) {
        assert forall j :: 1 <= j < |qs| ==> qs[j] == qs[1..][j - 1];
      }
    }
  }

  /** Either some quant is the first at that place, or none is there at all. */
  lemma {:induction false} FirstQuantExists(qs: seq<Quant>, product: Id, location: Id)
    ensures (exists k :: FirstQuantAt(qs, product, location, k)) ||
      (forall j :: 0 <= j < |qs| ==> !At(qs[j], product, location))
    decreases |qs|
  {
    if qs != [] && !At(qs[0], product, location) {
      FirstQuantExists(qs[1..], product, location);
      if k :| FirstQuantAt(qs[1..], product, location, k) {
        assert FirstQuantAt(qs, product, location, k + 1);
      } else {
        assert forall j :: 1 <= j < |qs| ==> qs[j] == qs[1..][j - 1];
      }
    } else if qs != [] {
      assert FirstQuantAt(qs, product, location, 0);
    }
  }

  /** The backend as an object: its tables are fields that each call updates in place. */
  class Odoo {
    var products: seq<Product>
    var partners: seq<Id>
    var internalLocations: seq<Id>
    var quants: seq<Quant>
    var orders: seq<Order>
    var lines: seq<OrderLine>
    var nextId: Id
    var faults: map<Call, Fault>
    /** Every call issued so far, in order, including the ones that failed. */
    var log: seq<Call>

    /** The tables as one value. */
    function State(): Store
      reads this
    {
      Store(products, partners, internalLocations, quants, orders, lines, nextId, faults)
    }

    ghost predicate Valid()
      reads this
    {
      WellFormed(State())
    }

    constructor (s: Store)
      requires WellFormed(s)
      ensures State() == s && log == []
      ensures Valid()
    {
      products, partners, internalLocations := s.products, s.partners, s.internalLocations;
      quants, orders, lines := s.quants, s.orders, s.lines;
      nextId, faults := s.nextId, s.faults;
      log := [];
    }

    /** `execute_kw`: issue one call, log it, and answer as `Exec` says. */
    method Execute(c: Call) returns (resp: Response)
      modifies this
      ensures (State(), resp) == Exec(old(State()), c)
      ensures log == old(log) + [c]
      ensures old(Valid()) ==> Valid()
    {
      if Valid() {
        ExecWellFormed(State(), c);
      }
      if !Sendable(c) {
        resp := Raised(TransportFault(IntLimitText));
      } else if c in faults && !Committed(faults[c]) {
        resp := Raised(faults[c]);
      } else {
        match c {
        case Authenticate =>
          resp := Done;
        case SearchProducts(name) =>
          resp := Ids(MatchingProducts(products, name));
        case ReadProduct(id) =>
          resp := ProductRows(ProductsWithId(products, id));
        case SearchPartners =>
          resp := Ids(Limit1(partners));
        case CreateOrder(partner) =>
          orders := orders + [Order(nextId, partner, false)];
          resp := Created(nextId);
          nextId := nextId + 1;
        case CreateOrderLine(order, product, qty) =>
          lines := lines + [OrderLine(nextId, order, product, qty)];
          resp := Created(nextId);
          nextId := nextId + 1;
        case ConfirmOrder(order) =>
          orders := MarkConfirmed(orders, order);
          resp := Done;
        case SearchInternalLocations =>
          resp := Ids(Limit1(internalLocations));
        case SearchQuants(product, location) =>
          resp := Ids(QuantsAt(quants, product, location));
        case ReadQuant(quant) =>
          resp := QuantityRows(QuantitiesOf(quants, quant));
        case WriteQuant(quant, amount) =>
          quants := SetCount(quants, quant, amount);
          resp := Done;
        case CreateQuant(product, location, amount) =>
          quants := quants + [Quant(nextId, product, location, None, amount, false)];
          resp := Created(nextId);
          nextId := nextId + 1;
        case ApplyInventory(quant) =>
          quants := MarkApplied(quants, quant);
          resp := Done;
        }
        if c in faults {
          resp := Raised(faults[c]);
        }
      }
      log := log + [c];
    }
  }
}

=== FILE: inventory.dfy ===
/**
 * The three inventory commands behind the chat router (`search_product`,
 * `make_sale`, `add_stock`) and the product lookup they share
 * (`find_product_id`). Each command runs a short, fixed sequence of remote
 * calls against the backend and turns every outcome, failures included, into
 * a reply string.
 *
 * Each command is a method that issues its calls through `Odoo.Execute`, and
 * a function (`CheckRun`, `SaleRun`, `RestockRun`) that says, for a given
 * backend state, which calls are issued, what the tables are afterwards and
 * what the reply is. The methods are proved to follow these functions; the
 * lemmas at the end state what the commands promise in terms of them.
 */
module Inventory {
  import opened Wrappers
  import opened Text
  import opened Numerals
  import opened Backend

  // ---------------------------------------------------------------------
  // Reply texts

  /** `str(e)` of the `IndexError` raised by `[0]` on an empty list. */
  const IndexErrorText := "list index out of range"

  function NotFoundText(item: string): string {
    "❌ Item '" + item + "' not found."
  }

  function FoundText(p: Product): string {
    "✅ Found: " + p.name + "\n💰 Price: " + p.listPrice + " KES\n📉 Stock: " + p.virtualAvailable
  }

  function SoldText(quantity: int, item: string, remaining: Shown): string {
    "💸 SOLD " + IntToString(quantity) + " x " + item + ".\n📉 Remaining: " + remaining
  }

  function AddedText(quantity: int, item: string, stock: Shown): string {
    "🚛 ADDED " + IntToString(quantity) + " x " + item + ".\n📈 New Stock: " + stock
  }

  function SaleErrorText(message: string): string {
    "Sale Error: " + message
  }

  function RestockErrorText(message: string): string {
    "Restock Error: " + message
  }

  // ---------------------------------------------------------------------
  // Product lookup

  /** `product_ids[0] if product_ids else None`. */
  function FindProductIdOf(ids: seq<Id>): Option<Id> {
    if |ids| > 0 then Some(ids[0]) else None
  }

  /** `k` is the first product whose name matches `item`. */
  predicate FirstMatchAt(ps: seq<Product>, item: string, k: int) {
    0 <= k < |ps| && Ilike(ps[k].name, item) &&
    forall j :: 0 <= j < k ==> !Ilike(ps[j].name, item)
  }

  predicate NoMatch(ps: seq<Product>, item: string) {
    forall j :: 0 <= j < |ps| ==> !Ilike(ps[j].name, item)
  }

  /** The lookup picks the first matching product, never a later one. */
  lemma {:induction false} LookupPicksFirst(ps: seq<Product>, item: string, k: int)
    requires FirstMatchAt(ps, item, k)
    ensures FindProductIdOf(MatchingProducts(ps, item)) == Some(ps[k].id)
    decreases |ps|
  {
    if k > 0 {
      LookupPicksFirst(ps[1..], item, k - 1);
    }
  }

  /** The lookup finds nothing exactly when no product name matches. */
  lemma {:induction false} LookupFindsNothing(ps: seq<Product>, item: string)
    ensures FindProductIdOf(MatchingProducts(ps, item)) == None <==> NoMatch(ps, item)
    decreases |ps|
  {
    if ps != [] {
      LookupFindsNothing(ps[1..], item);
      if !Ilike(ps[0].name, item) {
        assert forall j :: 1 <= j < |ps| ==> ps[j] == ps[1..][j - 1];
      }
    }
  }

  /** Either some product is the first match, or none matches at all. */
  lemma {:induction false} FirstMatchExists(ps: seq<Product>, item: string)
    ensures (exists k :: FirstMatchAt(ps, item, k)) || NoMatch(ps, item)
    decreases |ps|
  {
    if ps != [] && !Ilike(ps[0].name, item) {
      FirstMatchExists(ps[1..], item);
      if k :| FirstMatchAt(ps[1..], item, k) {
        assert FirstMatchAt(ps, item, k + 1);
      } else {
        assert forall j :: 1 <= j < |ps| ==> ps[j] == ps[1..][j - 1];
      }
    } else if ps != [] {
      assert FirstMatchAt(ps, item, 0);
    }
  }

  /** `find_product_id`: one name search, then the first id it returns. */
  method FindProductId(odoo: Odoo, item: string) returns (r: Result<Option<Id>, Fault>)
    modifies odoo
    ensures odoo.State() == old(odoo.State())
    ensures odoo.log == old(odoo.log) + [SearchProducts(item)]
    ensures SearchProducts(item) in old(odoo.faults) ==> r == Err(old(odoo.faults)[SearchProducts(item)])
    ensures SearchProducts(item) !in old(odoo.faults) ==>
      r == Ok(FindProductIdOf(MatchingProducts(old(odoo.products), item)))
    ensures r == Ok(None) ==> NoMatch(old(odoo.products), item)
    ensures forall k :: FirstMatchAt(old(odoo.products), item, k) && r.Ok? ==> r.value == Some(old(odoo.products)[k].id)
  {
    var resp := odoo.Execute(SearchProducts(item));
    if resp.Raised? {
      return Err(resp.fault);
    }
    r := Ok(FindProductIdOf(resp.ids));
    LookupFindsNothing(old(odoo.products), item);
    forall k | FirstMatchAt(old(odoo.products), item, k)
      ensures r.value == Some(old(odoo.products)[k].id)
    {
      LookupPicksFirst(old(odoo.products), item, k);
    }
  }

  // ---------------------------------------------------------------------
  // What each command does, as a function of the backend's state

  /**
   * The end of a command: the backend's tables, the log of calls (the log it
   * started from, followed by the calls it issued), and the reply.
   */
  datatype Run = Run(store: Store, log: seq<Call>, reply: string)

  /** `search_product`: look the item up and describe it. */
  function CheckRun(s: Store, log: seq<Call>, item: string): Run
  {
    var (s1, auth) := Exec(s, Authenticate);
    if auth.Raised? then Run(s1, log + [Authenticate], auth.fault.text) else
    var (s2, found) := Exec(s1, SearchProducts(item));
    var c2 := log + [Authenticate] + [SearchProducts(item)];
    if found.Raised? then Run(s2, c2, found.fault.text) else
    match FindProductIdOf(found.ids)
    case None => Run(s2, c2, NotFoundText(item))
    case Some(pid) =>
      var (s3, read) := Exec(s2, ReadProduct(pid));
      var c3 := c2 + [ReadProduct(pid)];
      if read.Raised? then Run(s3, c3, read.fault.text)
      else if |read.rows| == 0 then Run(s3, c3, IndexErrorText)
      else Run(s3, c3, FoundText(read.rows[0]))
  }

  /** Where `make_sale` stands: what it has found so far. */
  datatype SaleStep =
    | SaleStart
    | SaleFound(pid: Id)
    | SaleOrdering(partner: Id, pid: Id)
    | SaleReporting(pid: Id)

  function SaleStepsLeft(step: SaleStep): nat {
    match step
    case SaleStart => 3
    case SaleFound(_) => 2
    case SaleOrdering(_, _) => 1
    case SaleReporting(_) => 0
  }

  /**
   * `make_sale` from `step` on: authenticate and look the item up, take the
   * first customer, create one order for it with one line and confirm it,
   * then read the product's balance back and report it. Any failure on the
   * way becomes a "Sale Error" reply.
   */
  function SaleRun(s: Store, log: seq<Call>, step: SaleStep, item: string, quantity: int): Run
    decreases SaleStepsLeft(step)
  {
    match step
    case SaleStart =>
      var (s1, auth) := Exec(s, Authenticate);
      if auth.Raised? then Run(s1, log + [Authenticate], SaleErrorText(auth.fault.text)) else
      var (s2, found) := Exec(s1, SearchProducts(item));
      var c2 := log + [Authenticate] + [SearchProducts(item)];
      if found.Raised? then Run(s2, c2, SaleErrorText(found.fault.text)) else
      (match FindProductIdOf(found.ids)
       case None => Run(s2, c2, NotFoundText(item))
       case Some(pid) => SaleRun(s2, c2, SaleFound(pid), item, quantity))
    case SaleFound(pid) =>
      var (s1, partners) := Exec(s, SearchPartners);
      var c1 := log + [SearchPartners];
      if partners.Raised? then Run(s1, c1, SaleErrorText(partners.fault.text))
      else if |partners.ids| == 0 then Run(s1, c1, SaleErrorText(IndexErrorText))
      else SaleRun(s1, c1, SaleOrdering(partners.ids[0], pid), item, quantity)
    case SaleOrdering(partner, pid) =>
      var (s1, order) := Exec(s, CreateOrder(partner));
      var c1 := log + [CreateOrder(partner)];
      if order.Raised? then Run(s1, c1, SaleErrorText(order.fault.text)) else
      var (s2, line) := Exec(s1, CreateOrderLine(order.id, pid, quantity));
      var c2 := c1 + [CreateOrderLine(order.id, pid, quantity)];
      if line.Raised? then Run(s2, c2, SaleErrorText(line.fault.text)) else
      var (s3, confirm) := Exec(s2, ConfirmOrder(order.id));
      var c3 := c2 + [ConfirmOrder(order.id)];
      if confirm.Raised? then Run(s3, c3, SaleErrorText(confirm.fault.text))
      else SaleRun(s3, c3, SaleReporting(pid), item, quantity)
    case SaleReporting(pid) =>
      var (s1, read) := Exec(s, ReadProduct(pid));
      var c1 := log + [ReadProduct(pid)];
      if read.Raised? then Run(s1, c1, SaleErrorText(read.fault.text))
      else if |read.rows| == 0 then Run(s1, c1, SaleErrorText(IndexErrorText))
      else Run(s1, c1, SoldText(quantity, item, read.rows[0].virtualAvailable))
  }

  /** `(curr.get('quantity') or 0)`. */
  function OrZero(q: Option<int>): int {
    match q
    case None => 0
    case Some(v) => v
  }

  /** Where `add_stock` stands: what it has found so far. */
  datatype RestockStep =
    | RestockStart
    | RestockFound(pid: Id)
    | RestockAt(pid: Id, location: Id)
    | Recounting(quant: Id, pid: Id)
    | NewCounting(pid: Id, location: Id)
    | Applying(quant: Id, pid: Id)

  function RestockStepsLeft(step: RestockStep): nat {
    match step
    case RestockStart => 4
    case RestockFound(_) => 3
    case RestockAt(_, _) => 2
    case Recounting(_, _) => 1
    case NewCounting(_, _) => 1
    case Applying(_, _) => 0
  }

  /**
   * `add_stock` from `step` on: authenticate and look the item up, take the
   * first internal location, then either raise the counted quantity of the
   * first quant there to its current quantity plus `quantity`, or create a
   * quant counting `quantity`; apply the count, swallowing a fault the
   * backend reports, and report the product's balance. Any other failure
   * becomes a "Restock Error" reply.
   */
  function RestockRun(s: Store, log: seq<Call>, step: RestockStep, item: string, quantity: int): Run
    decreases RestockStepsLeft(step)
  {
    match step
    case RestockStart =>
      var (s1, auth) := Exec(s, Authenticate);
      if auth.Raised? then Run(s1, log + [Authenticate], RestockErrorText(auth.fault.text)) else
      var (s2, found) := Exec(s1, SearchProducts(item));
      var c2 := log + [Authenticate] + [SearchProducts(item)];
      if found.Raised? then Run(s2, c2, RestockErrorText(found.fault.text)) else
      (match FindProductIdOf(found.ids)
       case None => Run(s2, c2, NotFoundText(item))
       case Some(pid) => RestockRun(s2, c2, RestockFound(pid), item, quantity))
    case RestockFound(pid) =>
      var (s1, locations) := Exec(s, SearchInternalLocations);
      var c1 := log + [SearchInternalLocations];
      if locations.Raised? then Run(s1, c1, RestockErrorText(locations.fault.text))
      else if |locations.ids| == 0 then Run(s1, c1, RestockErrorText(IndexErrorText))
      else RestockRun(s1, c1, RestockAt(pid, locations.ids[0]), item, quantity)
    case RestockAt(pid, location) =>
      var (s1, quants) := Exec(s, SearchQuants(pid, location));
      var c1 := log + [SearchQuants(pid, location)];
      if quants.Raised? then Run(s1, c1, RestockErrorText(quants.fault.text))
      else if |quants.ids| > 0 then RestockRun(s1, c1, Recounting(quants.ids[0], pid), item, quantity)
      else RestockRun(s1, c1, NewCounting(pid, location), item, quantity)
    case Recounting(quant, pid) =>
      var (s1, read) := Exec(s, ReadQuant(quant));
      var c1 := log + [ReadQuant(quant)];
      if read.Raised? then Run(s1, c1, RestockErrorText(read.fault.text))
      else if |read.quantities| == 0 then Run(s1, c1, RestockErrorText(IndexErrorText))
      else
        var newQty := OrZero(read.quantities[0]) + quantity;
        var (s2, write) := Exec(s1, WriteQuant(quant, newQty));
        var c2 := c1 + [WriteQuant(quant, newQty)];
        if write.Raised? then Run(s2, c2, RestockErrorText(write.fault.text))
        else RestockRun(s2, c2, Applying(quant, pid), item, quantity)
    case NewCounting(pid, location) =>
      var (s1, created) := Exec(s, CreateQuant(pid, location, quantity));
      var c1 := log + [CreateQuant(pid, location, quantity)];
      if created.Raised? then Run(s1, c1, RestockErrorText(created.fault.text))
      else RestockRun(s1, c1, Applying(created.id, pid), item, quantity)
    case Applying(quant, pid) =>
      var (s1, apply) := Exec(s, ApplyInventory(quant));
      var c1 := log + [ApplyInventory(quant)];
      if apply.Raised? && !apply.fault.RpcFault? then Run(s1, c1, RestockErrorText(apply.fault.text)) else
      var (s2, read) := Exec(s1, ReadProduct(pid));
      var c2 := c1 + [ReadProduct(pid)];
      if read.Raised? then Run(s2, c2, RestockErrorText(read.fault.text))
      else if |read.rows| == 0 then Run(s2, c2, RestockErrorText(IndexErrorText))
      else Run(s2, c2, AddedText(quantity, item, read.rows[0].virtualAvailable))
  }

  // ---------------------------------------------------------------------
  // The commands

  /** `search_product`: only searches and reads; the backend's tables stay as they were. */
  method SearchProduct(odoo: Odoo, item: string) returns (reply: string)
    modifies odoo
    ensures var run := CheckRun(old(odoo.State()), old(odoo.log), item);
      reply == run.reply && odoo.State() == run.store && odoo.log == run.log
    ensures odoo.State() == old(odoo.State())
  {
    CheckIsReadOnly(odoo.State(), odoo.log, item);
    var auth := odoo.Execute(Authenticate);
    if auth.Raised? {
      return auth.fault.text;
    }
    var found := FindProductId(odoo, item);
    if found.Err? {
      return found.error.text;
    }
    if found.value.None? {
      return NotFoundText(item);
    }
    var pid := found.value.value;
    var read := odoo.Execute(ReadProduct(pid));
    if read.Raised? {
      return read.fault.text;
    }
    if |read.rows| == 0 {
      return IndexErrorText;
    }
    return FoundText(read.rows[0]);
  }

  /** `make_sale`. */
  method MakeSale(odoo: Odoo, item: string, quantity: int) returns (reply: string)
    modifies odoo
    ensures var run := SaleRun(old(odoo.State()), old(odoo.log), SaleStart, item, quantity);
      reply == run.reply && odoo.State() == run.store && odoo.log == run.log
    ensures old(odoo.Valid()) ==> odoo.Valid()
  {
    var auth := odoo.Execute(Authenticate);
    if auth.Raised? {
      return SaleErrorText(auth.fault.text);
    }
    var found := FindProductId(odoo, item);
    if found.Err? {
      return SaleErrorText(found.error.text);
    }
    if found.value.None? {
      return NotFoundText(item);
    }
    reply := SellFound(odoo, found.value.value, item, quantity);
  }

  method SellFound(odoo: Odoo, pid: Id, item: string, quantity: int) returns (reply: string)
    modifies odoo
    ensures var run := SaleRun(old(odoo.State()), old(odoo.log), SaleFound(pid), item, quantity);
      reply == run.reply && odoo.State() == run.store && odoo.log == run.log
    ensures old(odoo.Valid()) ==> odoo.Valid()
  {
    var partners := odoo.Execute(SearchPartners);
    if partners.Raised? {
      return SaleErrorText(partners.fault.text);
    }
    if |partners.ids| == 0 {
      return SaleErrorText(IndexErrorText);
    }
    reply := PlaceOrder(odoo, partners.ids[0], pid, item, quantity);
  }

  method PlaceOrder(odoo: Odoo, partner: Id, pid: Id, item: string, quantity: int) returns (reply: string)
    modifies odoo
    ensures var run := SaleRun(old(odoo.State()), old(odoo.log), SaleOrdering(partner, pid), item, quantity);
      reply == run.reply && odoo.State() == run.store && odoo.log == run.log
    ensures old(odoo.Valid()) ==> odoo.Valid()
  {
    var order := odoo.Execute(CreateOrder(partner));
    if order.Raised? {
      return SaleErrorText(order.fault.text);
    }
    var line := odoo.Execute(CreateOrderLine(order.id, pid, quantity));
    if line.Raised? {
      return SaleErrorText(line.fault.text);
    }
    var confirm := odoo.Execute(ConfirmOrder(order.id));
    if confirm.Raised? {
      return SaleErrorText(confirm.fault.text);
    }
    reply := ReportSale(odoo, pid, item, quantity);
  }

  method ReportSale(odoo: Odoo, pid: Id, item: string, quantity: int) returns (reply: string)
    modifies odoo
    ensures var run := SaleRun(old(odoo.State()), old(odoo.log), SaleReporting(pid), item, quantity);
      reply == run.reply && odoo.State() == run.store && odoo.log == run.log
    ensures old(odoo.Valid()) ==> odoo.Valid()
  {
    var read := odoo.Execute(ReadProduct(pid));
    if read.Raised? {
      return SaleErrorText(read.fault.text);
    }
    if |read.rows| == 0 {
      return SaleErrorText(IndexErrorText);
    }
    return SoldText(quantity, item, read.rows[0].virtualAvailable);
  }

  /** `add_stock`. */
  method AddStock(odoo: Odoo, item: string, quantity: int) returns (reply: string)
    modifies odoo
    ensures var run := RestockRun(old(odoo.State()), old(odoo.log), RestockStart, item, quantity);
      reply == run.reply && odoo.State() == run.store && odoo.log == run.log
    ensures old(odoo.Valid()) ==> odoo.Valid()
  {
    var auth := odoo.Execute(Authenticate);
    if auth.Raised? {
      return RestockErrorText(auth.fault.text);
    }
    var found := FindProductId(odoo, item);
    if found.Err? {
      return RestockErrorText(found.error.text);
    }
    if found.value.None? {
      return NotFoundText(item);
    }
    reply := StockFound(odoo, found.value.value, item, quantity);
  }

  method StockFound(odoo: Odoo, pid: Id, item: string, quantity: int) returns (reply: string)
    modifies odoo
    ensures var run := RestockRun(old(odoo.State()), old(odoo.log), RestockFound(pid), item, quantity);
      reply == run.reply && odoo.State() == run.store && odoo.log == run.log
    ensures old(odoo.Valid()) ==> odoo.Valid()
  {
    var locations := odoo.Execute(SearchInternalLocations);
    if locations.Raised? {
      return RestockErrorText(locations.fault.text);
    }
    if |locations.ids| == 0 {
      return RestockErrorText(IndexErrorText);
    }
    reply := StockAt(odoo, pid, locations.ids[0], item, quantity);
  }

  method StockAt(odoo: Odoo, pid: Id, location: Id, item: string, quantity: int) returns (reply: string)
    modifies odoo
    ensures var run := RestockRun(old(odoo.State()), old(odoo.log), RestockAt(pid, location), item, quantity);
      reply == run.reply && odoo.State() == run.store && odoo.log == run.log
    ensures old(odoo.Valid()) ==> odoo.Valid()
  {
    var quants := odoo.Execute(SearchQuants(pid, location));
    if quants.Raised? {
      return RestockErrorText(quants.fault.text);
    }
    if |quants.ids| > 0 {
      reply := Recount(odoo, quants.ids[0], pid, item, quantity);
    } else {
      reply := NewCount(odoo, pid, location, item, quantity);
    }
  }

  method Recount(odoo: Odoo, quant: Id, pid: Id, item: string, quantity: int) returns (reply: string)
    modifies odoo
    ensures var run := RestockRun(old(odoo.State()), old(odoo.log), Recounting(quant, pid), item, quantity);
      reply == run.reply && odoo.State() == run.store && odoo.log == run.log
    ensures old(odoo.Valid()) ==> odoo.Valid()
  {
    ghost var s0, log0 := odoo.State(), odoo.log;
    var read := odoo.Execute(ReadQuant(quant));
    if read.Raised? {
      return RestockErrorText(read.fault.text);
    }
    if |read.quantities| == 0 {
      return RestockErrorText(IndexErrorText);
    }
    var newQty := OrZero(read.quantities[0]) + quantity;
    var write := odoo.Execute(WriteQuant(quant, newQty));
    if write.Raised? {
      return RestockErrorText(write.fault.text);
    }
    assert RestockRun(s0, log0, Recounting(quant, pid), item, quantity)
        == RestockRun(odoo.State(), odoo.log, Applying(quant, pid), item, quantity);
    reply := ApplyCount(odoo, quant, pid, item, quantity);
  }

  method NewCount(odoo: Odoo, pid: Id, location: Id, item: string, quantity: int) returns (reply: string)
    modifies odoo
    ensures var run := RestockRun(old(odoo.State()), old(odoo.log), NewCounting(pid, location), item, quantity);
      reply == run.reply && odoo.State() == run.store && odoo.log == run.log
    ensures old(odoo.Valid()) ==> odoo.Valid()
  {
    var created := odoo.Execute(CreateQuant(pid, location, quantity));
    if created.Raised? {
      return RestockErrorText(created.fault.text);
    }
    reply := ApplyCount(odoo, created.id, pid, item, quantity);
  }

  method ApplyCount(odoo: Odoo, quant: Id, pid: Id, item: string, quantity: int) returns (reply: string)
    modifies odoo
    ensures var run := RestockRun(old(odoo.State()), old(odoo.log), Applying(quant, pid), item, quantity);
      reply == run.reply && odoo.State() == run.store && odoo.log == run.log
    ensures old(odoo.Valid()) ==> odoo.Valid()
  {
    var apply := odoo.Execute(ApplyInventory(quant));
    if apply.Raised? && !apply.fault.RpcFault? {
      return RestockErrorText(apply.fault.text);
    }
    var read := odoo.Execute(ReadProduct(pid));
    if read.Raised? {
      return RestockErrorText(read.fault.text);
    }
    if |read.rows| == 0 {
      return RestockErrorText(IndexErrorText);
    }
    return AddedText(quantity, item, read.rows[0].virtualAvailable);
  }

  // ---------------------------------------------------------------------
  // What the commands promise

  /** A lookup issues no call that changes the backend, and leaves its tables as they were. */
  lemma CheckIsReadOnly(s: Store, log: seq<Call>, item: string)
    ensures var r := CheckRun(s, log, item);
      && r.store == s
      && |log| <= |r.log| && r.log[..|log|] == log
      && forall i :: |log| <= i < |r.log| ==> !Mutates(r.log[i])
  {
    var r := CheckRun(s, log, item);
    var c2 := log + [Authenticate] + [SearchProducts(item)];
    assert c2[..|log|] == log;
    forall pid: Id
      ensures (c2 + [ReadProduct(pid)])[..|log|] == log
      ensures forall i :: |log| <= i < |c2| + 1 ==> !Mutates((c2 + [ReadProduct(pid)])[i])
    {
      assert (c2 + [ReadProduct(pid)])[..|log|] == log;
    }
  }

  /**
   * Looking the same item up twice gives the same reply and still changes
   * nothing. The failures in `Store.faults` are fixed for both lookups: a
   * transient failure that strikes only the second lookup would change its
   * reply, though still not the tables.
   */
  lemma CheckTwice(s: Store, log: seq<Call>, item: string)
    ensures var first := CheckRun(s, log, item);
      var second := CheckRun(first.store, first.log, item);
      second.store == s && second.reply == first.reply
  {
    CheckIsReadOnly(s, log, item);
    var first := CheckRun(s, log, item);
    ReplyIgnoresLog(s, log, first.log, item);
  }

  /** What a lookup replies does not depend on the calls issued before it. */
  lemma ReplyIgnoresLog(s: Store, log1: seq<Call>, log2: seq<Call>, item: string)
    ensures CheckRun(s, log1, item).reply == CheckRun(s, log2, item).reply
    ensures CheckRun(s, log1, item).store == CheckRun(s, log2, item).store
  {
  }

  /**
   * An item that names no product: every command replies "not found" after
   * the login and the one search, with no create, write or action call.
   */
  lemma NotFoundTouchesNothing(s: Store, log: seq<Call>, item: string, quantity: int)
    requires Authenticate !in s.faults && SearchProducts(item) !in s.faults
    requires NoMatch(s.products, item)
    ensures var r := Run(s, log + [Authenticate, SearchProducts(item)], NotFoundText(item));
      && CheckRun(s, log, item) == r
      && SaleRun(s, log, SaleStart, item, quantity) == r
      && RestockRun(s, log, RestockStart, item, quantity) == r
  {
    LookupFindsNothing(s.products, item);
    assert log + [Authenticate] + [SearchProducts(item)] == log + [Authenticate, SearchProducts(item)];
  }

  /**
   * A sale of a found product, with no failure on the way: one new order for
   * the first customer, confirmed, with one line for the product and the
   * requested quantity; nothing else changes, and the reply reports the
   * product's balance.
   */
  lemma SaleRecordsOrder(s: Store, log: seq<Call>, item: string, quantity: int, k: int)
    requires WellFormed(s) && s.faults == map[]
    requires FirstMatchAt(s.products, item, k) && |s.partners| > 0
    requires FitsXmlRpcInt(quantity)
    ensures var n, pid, partner := s.nextId, s.products[k].id, s.partners[0];
      var r := SaleRun(s, log, SaleStart, item, quantity);
      && r.store == s.(orders := s.orders + [Order(n, partner, true)],
                       lines := s.lines + [OrderLine(n + 1, n, pid, quantity)],
                       nextId := n + 2)
      && r.log == log + [Authenticate, SearchProducts(item), SearchPartners, CreateOrder(partner),
                         CreateOrderLine(n, pid, quantity), ConfirmOrder(n), ReadProduct(pid)]
      && r.reply == SoldText(quantity, item, s.products[k].virtualAvailable)
  {
    var n, pid, partner := s.nextId, s.products[k].id, s.partners[0];
    LookupPicksFirst(s.products, item, k);
    var c2 := log + [Authenticate] + [SearchProducts(item)];
    assert SaleRun(s, log, SaleStart, item, quantity) == SaleRun(s, c2, SaleFound(pid), item, quantity);
    var c3 := c2 + [SearchPartners];
    assert SaleRun(s, c2, SaleFound(pid), item, quantity) == SaleRun(s, c3, SaleOrdering(partner, pid), item, quantity);
    var s1 := s.(orders := s.orders + [Order(n, partner, false)], nextId := n + 1);
    var s2 := s1.(lines := s.lines + [OrderLine(n + 1, n, pid, quantity)], nextId := n + 2);
    ConfirmNewOrder(s.orders, Order(n, partner, false));
    var s3 := s2.(orders := s.orders + [Order(n, partner, true)]);
    var c6 := c3 + [CreateOrder(partner)] + [CreateOrderLine(n, pid, quantity)] + [ConfirmOrder(n)];
    assert SaleRun(s, c3, SaleOrdering(partner, pid), item, quantity) == SaleRun(s3, c6, SaleReporting(pid), item, quantity);
    ReadFindsProduct(s.products, k);
    assert c6 + [ReadProduct(pid)] == log + [Authenticate, SearchProducts(item), SearchPartners, CreateOrder(partner),
                         CreateOrderLine(n, pid, quantity), ConfirmOrder(n), ReadProduct(pid)];
  }

  /** No customer at all: indexing the empty search result fails, before anything is created. */
  lemma SaleWithoutCustomer(s: Store, log: seq<Call>, item: string, quantity: int, k: int)
    requires s.faults == map[]
    requires FirstMatchAt(s.products, item, k) && s.partners == []
    ensures var r := SaleRun(s, log, SaleStart, item, quantity);
      && r.store == s
      && r.log == log + [Authenticate, SearchProducts(item), SearchPartners]
      && r.reply == SaleErrorText(IndexErrorText)
  {
    LookupPicksFirst(s.products, item, k);
    var c2 := log + [Authenticate] + [SearchProducts(item)];
    assert SaleRun(s, log, SaleStart, item, quantity) == SaleRun(s, c2, SaleFound(s.products[k].id), item, quantity);
    assert c2 + [SearchPartners] == log + [Authenticate, SearchProducts(item), SearchPartners];
  }

  /**
   * A failed confirmation is reported, but nothing is undone: the order and
   * its line stay behind, unconfirmed unless the backend committed the
   * confirmation before the failure (a lost reply, or a fault raised after
   * the commit).
   */
  lemma SaleLeavesUnconfirmedOrder(s: Store, log: seq<Call>, item: string, quantity: int, k: int, f: Fault)
    requires WellFormed(s) && s.faults == map[ConfirmOrder(s.nextId) := f]
    requires FirstMatchAt(s.products, item, k) && |s.partners| > 0
    requires FitsXmlRpcInt(quantity)
    ensures var n, pid, partner := s.nextId, s.products[k].id, s.partners[0];
      var r := SaleRun(s, log, SaleStart, item, quantity);
      && r.store == s.(orders := s.orders + [Order(n, partner, Committed(f))],
                       lines := s.lines + [OrderLine(n + 1, n, pid, quantity)],
                       nextId := n + 2)
      && r.reply == SaleErrorText(f.text)
  {
    var n, pid, partner := s.nextId, s.products[k].id, s.partners[0];
    LookupPicksFirst(s.products, item, k);
    var c2 := log + [Authenticate] + [SearchProducts(item)];
    assert SaleRun(s, log, SaleStart, item, quantity) == SaleRun(s, c2, SaleFound(pid), item, quantity);
    var c3 := c2 + [SearchPartners];
    assert SaleRun(s, c2, SaleFound(pid), item, quantity) == SaleRun(s, c3, SaleOrdering(partner, pid), item, quantity);
    if Committed(f) {
      ConfirmNewOrder(s.orders, Order(n, partner, false));
    }
  }

  /**
   * A quantity outside the XML-RPC `int` range cannot be sent with the order
   * line: the order is created, the line is not, and the sale ends in a
   * "Sale Error" with an order left behind, unconfirmed and empty.
   */
  lemma SaleQuantityOutOfRange(s: Store, log: seq<Call>, item: string, quantity: int, k: int)
    requires s.faults == map[]
    requires FirstMatchAt(s.products, item, k) && |s.partners| > 0
    requires !FitsXmlRpcInt(quantity)
    ensures var n, pid, partner := s.nextId, s.products[k].id, s.partners[0];
      var r := SaleRun(s, log, SaleStart, item, quantity);
      && r.store == s.(orders := s.orders + [Order(n, partner, false)], nextId := n + 1)
      && r.log == log + [Authenticate, SearchProducts(item), SearchPartners, CreateOrder(partner),
                         CreateOrderLine(n, pid, quantity)]
      && r.reply == SaleErrorText(IntLimitText)
  {
    var n, pid, partner := s.nextId, s.products[k].id, s.partners[0];
    LookupPicksFirst(s.products, item, k);
    var c2 := log + [Authenticate] + [SearchProducts(item)];
    assert SaleRun(s, log, SaleStart, item, quantity) == SaleRun(s, c2, SaleFound(pid), item, quantity);
    var c3 := c2 + [SearchPartners];
    assert SaleRun(s, c2, SaleFound(pid), item, quantity) == SaleRun(s, c3, SaleOrdering(partner, pid), item, quantity);
    assert c3 + [CreateOrder(partner)] + [CreateOrderLine(n, pid, quantity)] ==
      log + [Authenticate, SearchProducts(item), SearchPartners, CreateOrder(partner), CreateOrderLine(n, pid, quantity)];
  }

  /** The steps of `add_stock` up to the quant search at the first internal location. */
  lemma RestockReachesLocation(s: Store, log: seq<Call>, item: string, quantity: int, k: int)
    requires Authenticate !in s.faults && SearchProducts(item) !in s.faults
    requires SearchInternalLocations !in s.faults
    requires FirstMatchAt(s.products, item, k) && |s.internalLocations| > 0
    ensures RestockRun(s, log, RestockStart, item, quantity) ==
      RestockRun(s, log + [Authenticate, SearchProducts(item), SearchInternalLocations],
                 RestockAt(s.products[k].id, s.internalLocations[0]), item, quantity)
  {
    LookupPicksFirst(s.products, item, k);
    var c2 := log + [Authenticate] + [SearchProducts(item)];
    assert RestockRun(s, log, RestockStart, item, quantity) ==
      RestockRun(s, c2, RestockFound(s.products[k].id), item, quantity);
    assert c2 + [SearchInternalLocations] == log + [Authenticate, SearchProducts(item), SearchInternalLocations];
  }

  /** What the searches and the write see of the first quant at a place. */
  lemma RecountFacts(qs: seq<Quant>, pid: Id, location: Id, j: int, count: int)
    requires UniqueQuantIds(qs)
    requires FirstQuantAt(qs, pid, location, j)
    ensures |QuantsAt(qs, pid, location)| > 0 && QuantsAt(qs, pid, location)[0] == qs[j].id
    ensures QuantitiesOf(qs, qs[j].id) == [qs[j].quantity]
    ensures SetCount(qs, qs[j].id, count) == qs[j := qs[j].(inventoryQuantity := count, applied := false)]
  {
    QuantSearchFirst(qs, pid, location, j);
    ReadFindsQuant(qs, j);
    SetCountAt(qs, j, count);
  }

  /**
   * At a location with a quant: the quant search finds `quant` first, its
   * quantity is read, and the count "quantity (or 0) plus the requested
   * amount" is written to it.
   */
  lemma RecountAt(s: Store, log: seq<Call>, pid: Id, location: Id, item: string, quantity: int,
                  quant: Id, known: Option<int>, s1: Store, log1: seq<Call>)
    requires |QuantsAt(s.quants, pid, location)| > 0 && QuantsAt(s.quants, pid, location)[0] == quant
    requires QuantitiesOf(s.quants, quant) == [known]
    requires SearchQuants(pid, location) !in s.faults && ReadQuant(quant) !in s.faults
    requires WriteQuant(quant, OrZero(known) + quantity) !in s.faults
    requires s1 == s.(quants := SetCount(s.quants, quant, OrZero(known) + quantity))
    requires log1 == log + [SearchQuants(pid, location), ReadQuant(quant), WriteQuant(quant, OrZero(known) + quantity)]
    ensures RestockRun(s, log, RestockAt(pid, location), item, quantity) ==
      RestockRun(s1, log1, Applying(quant, pid), item, quantity)
  {
    var c1 := log + [SearchQuants(pid, location)];
    QuantFoundAt(s, log, pid, location, item, quantity, quant);
    assert c1 + [ReadQuant(quant), WriteQuant(quant, OrZero(known) + quantity)] == log1;
    CountWritten(s, c1, pid, item, quantity, quant, known, s1, log1);
  }

  /** The quant search finds `quant` first, so `quant` is the one recounted. */
  lemma QuantFoundAt(s: Store, log: seq<Call>, pid: Id, location: Id, item: string, quantity: int, quant: Id)
    requires |QuantsAt(s.quants, pid, location)| > 0 && QuantsAt(s.quants, pid, location)[0] == quant
    requires SearchQuants(pid, location) !in s.faults
    ensures RestockRun(s, log, RestockAt(pid, location), item, quantity) ==
      RestockRun(s, log + [SearchQuants(pid, location)], Recounting(quant, pid), item, quantity)
  {
  }

  /** A recount reads the quant's quantity and writes back that quantity (or 0) plus the requested amount. */
  lemma CountWritten(s: Store, log: seq<Call>, pid: Id, item: string, quantity: int,
                     quant: Id, known: Option<int>, s1: Store, log1: seq<Call>)
    requires QuantitiesOf(s.quants, quant) == [known]
    requires ReadQuant(quant) !in s.faults && WriteQuant(quant, OrZero(known) + quantity) !in s.faults
    requires s1 == s.(quants := SetCount(s.quants, quant, OrZero(known) + quantity))
    requires log1 == log + [ReadQuant(quant), WriteQuant(quant, OrZero(known) + quantity)]
    ensures RestockRun(s, log, Recounting(quant, pid), item, quantity) ==
      RestockRun(s1, log1, Applying(quant, pid), item, quantity)
  {
    assert log + [ReadQuant(quant)] + [WriteQuant(quant, OrZero(known) + quantity)] == log1;
  }

  /** At a location without a quant: one quant is created there. */
  lemma RestockCreateStep(s: Store, log: seq<Call>, pid: Id, location: Id, item: string, quantity: int)
    requires forall j :: 0 <= j < |s.quants| ==> !At(s.quants[j], pid, location)
    requires SearchQuants(pid, location) !in s.faults && CreateQuant(pid, location, quantity) !in s.faults
    requires FitsXmlRpcInt(quantity)
    ensures var n := s.nextId;
      RestockRun(s, log, RestockAt(pid, location), item, quantity) ==
      RestockRun(s.(quants := s.quants + [Quant(n, pid, location, None, quantity, false)], nextId := n + 1),
                 log + [SearchQuants(pid, location), CreateQuant(pid, location, quantity)],
                 Applying(n, pid), item, quantity)
  {
    QuantSearchEmpty(s.quants, pid, location);
    var c1 := log + [SearchQuants(pid, location)];
    assert RestockRun(s, log, RestockAt(pid, location), item, quantity) ==
      RestockRun(s, c1, NewCounting(pid, location), item, quantity);
    assert c1 + [CreateQuant(pid, location, quantity)] ==
      log + [SearchQuants(pid, location), CreateQuant(pid, location, quantity)];
  }

  /**
   * The apply step on the quant at index `j`: a fault the backend reports is
   * swallowed and the balance of product `k` is still read and reported. The
   * quant ends up applied unless the fault came with a rollback.
   */
  lemma RestockApplyStep(s: Store, log: seq<Call>, item: string, quantity: int, j: int, k: int)
    requires UniqueQuantIds(s.quants)
    requires UniqueProductIds(s.products)
    requires 0 <= j < |s.quants| && 0 <= k < |s.products|
    requires ApplyInventory(s.quants[j].id) in s.faults ==> s.faults[ApplyInventory(s.quants[j].id)].RpcFault?
    requires ReadProduct(s.products[k].id) !in s.faults
    ensures var q, pid := s.quants[j], s.products[k].id;
      var r := RestockRun(s, log, Applying(q.id, pid), item, quantity);
      && r.store == (if ApplyInventory(q.id) in s.faults && !Committed(s.faults[ApplyInventory(q.id)]) then s
                     else s.(quants := s.quants[j := q.(applied := true)]))
      && r.log == log + [ApplyInventory(q.id), ReadProduct(pid)]
      && r.reply == AddedText(quantity, item, s.products[k].virtualAvailable)
  {
    MarkAppliedAt(s.quants, j);
    ReadFindsProduct(s.products, k);
    assert log + [ApplyInventory(s.quants[j].id)] + [ReadProduct(s.products[k].id)] ==
      log + [ApplyInventory(s.quants[j].id), ReadProduct(s.products[k].id)];
  }

  /** A new count keeps quant ids unique. */
  lemma RecountKeepsIds(qs: seq<Quant>, j: int, count: int)
    requires UniqueQuantIds(qs) && 0 <= j < |qs|
    ensures UniqueQuantIds(qs[j := qs[j].(inventoryQuantity := count, applied := false)])
  {
  }

  /** From the quant search on, with no failure: recount the first quant there and apply it. */
  lemma RestockRecountFrom(s: Store, log: seq<Call>, location: Id, item: string, quantity: int, k: int, j: int)
    requires UniqueProductIds(s.products) && UniqueQuantIds(s.quants) && s.faults == map[]
    requires 0 <= k < |s.products| && FirstQuantAt(s.quants, s.products[k].id, location, j)
    ensures var pid, q := s.products[k].id, s.quants[j];
      var count := OrZero(q.quantity) + quantity;
      var r := RestockRun(s, log, RestockAt(pid, location), item, quantity);
      && r.store == s.(quants := s.quants[j := q.(inventoryQuantity := count, applied := true)])
      && r.log == log + [SearchQuants(pid, location), ReadQuant(q.id), WriteQuant(q.id, count),
                         ApplyInventory(q.id), ReadProduct(pid)]
      && r.reply == AddedText(quantity, item, s.products[k].virtualAvailable)
  {
    var pid, q := s.products[k].id, s.quants[j];
    var count := OrZero(q.quantity) + quantity;
    var c3 := log + [SearchQuants(pid, location), ReadQuant(q.id), WriteQuant(q.id, count)];
    var s1 := s.(quants := s.quants[j := q.(inventoryQuantity := count, applied := false)]);
    RecountHop(s, log, pid, location, item, quantity, j);
    assert UniqueQuantIds(s1.quants) by {
      RecountKeepsIds(s.quants, j, count);
    }
    RestockApplyStep(s1, c3, item, quantity, j, k);
    assert s1.quants[j := s1.quants[j].(applied := true)] ==
      s.quants[j := q.(inventoryQuantity := count, applied := true)];
    assert c3 + [ApplyInventory(q.id), ReadProduct(pid)] ==
      log + [SearchQuants(pid, location), ReadQuant(q.id), WriteQuant(q.id, count), ApplyInventory(q.id), ReadProduct(pid)];
  }

  /**
   * Restocking a product that already has a quant at the first internal
   * location, with no failure: the first such quant, and no other, gets the
   * count "current quantity (or 0) plus the requested amount", which is then
   * applied, and the balance is reported.
   */
  lemma RestockRecountsFirstQuant(s: Store, log: seq<Call>, item: string, quantity: int, k: int, j: int)
    requires UniqueProductIds(s.products) && UniqueQuantIds(s.quants) && s.faults == map[]
    requires FirstMatchAt(s.products, item, k) && |s.internalLocations| > 0
    requires FirstQuantAt(s.quants, s.products[k].id, s.internalLocations[0], j)
    ensures var pid, location, q := s.products[k].id, s.internalLocations[0], s.quants[j];
      var count := OrZero(q.quantity) + quantity;
      var r := RestockRun(s, log, RestockStart, item, quantity);
      && r.store == s.(quants := s.quants[j := q.(inventoryQuantity := count, applied := true)])
      && r.log == log + [Authenticate, SearchProducts(item), SearchInternalLocations, SearchQuants(pid, location),
                         ReadQuant(q.id), WriteQuant(q.id, count), ApplyInventory(q.id), ReadProduct(pid)]
      && r.reply == AddedText(quantity, item, s.products[k].virtualAvailable)
  {
    var pid, location, q := s.products[k].id, s.internalLocations[0], s.quants[j];
    var count := OrZero(q.quantity) + quantity;
    var c3 := log + [Authenticate, SearchProducts(item), SearchInternalLocations];
    RestockReachesLocation(s, log, item, quantity, k);
    RestockRecountFrom(s, c3, location, item, quantity, k, j);
    assert c3 + [SearchQuants(pid, location), ReadQuant(q.id), WriteQuant(q.id, count), ApplyInventory(q.id), ReadProduct(pid)] ==
      log + [Authenticate, SearchProducts(item), SearchInternalLocations, SearchQuants(pid, location),
             ReadQuant(q.id), WriteQuant(q.id, count), ApplyInventory(q.id), ReadProduct(pid)];
  }

  /**
   * From the quant search on, with a fault the backend reports on apply: the
   * count stays written, and is applied exactly when the backend committed
   * the apply before the fault.
   */
  lemma RestockApplyFaultFrom(s: Store, log: seq<Call>, location: Id, item: string, quantity: int, k: int, j: int,
                              m: string, committed: bool)
    requires UniqueProductIds(s.products) && UniqueQuantIds(s.quants)
    requires 0 <= k < |s.products| && FirstQuantAt(s.quants, s.products[k].id, location, j)
    requires s.faults == map[ApplyInventory(s.quants[j].id) := RpcFault(m, committed)]
    ensures var pid, q := s.products[k].id, s.quants[j];
      var count := OrZero(q.quantity) + quantity;
      var r := RestockRun(s, log, RestockAt(pid, location), item, quantity);
      && r.store == s.(quants := s.quants[j := q.(inventoryQuantity := count, applied := committed)])
      && r.log == log + [SearchQuants(pid, location), ReadQuant(q.id), WriteQuant(q.id, count),
                         ApplyInventory(q.id), ReadProduct(pid)]
      && r.reply == AddedText(quantity, item, s.products[k].virtualAvailable)
  {
    var pid, q := s.products[k].id, s.quants[j];
    var count := OrZero(q.quantity) + quantity;
    var c3 := log + [SearchQuants(pid, location), ReadQuant(q.id), WriteQuant(q.id, count)];
    var s1 := s.(quants := s.quants[j := q.(inventoryQuantity := count, applied := false)]);
    RecountHop(s, log, pid, location, item, quantity, j);
    assert UniqueQuantIds(s1.quants) by {
      RecountKeepsIds(s.quants, j, count);
    }
    ApplyFaultStep(s1, c3, item, quantity, j, k, q.id, pid, m, committed);
    assert s1.quants[j := s1.quants[j].(applied := committed)] ==
      s.quants[j := q.(inventoryQuantity := count, applied := committed)];
    assert c3 + [ApplyInventory(q.id), ReadProduct(pid)] ==
      log + [SearchQuants(pid, location), ReadQuant(q.id), WriteQuant(q.id, count), ApplyInventory(q.id), ReadProduct(pid)];
  }

  /** From the quant search on, while the search, read and write succeed: the first quant there is recounted. */
  lemma RecountHop(s: Store, log: seq<Call>, pid: Id, location: Id, item: string, quantity: int, j: int)
    requires UniqueQuantIds(s.quants) && FirstQuantAt(s.quants, pid, location, j)
    requires var q := s.quants[j];
      && SearchQuants(pid, location) !in s.faults && ReadQuant(q.id) !in s.faults
      && WriteQuant(q.id, OrZero(q.quantity) + quantity) !in s.faults
    ensures var q := s.quants[j];
      var count := OrZero(q.quantity) + quantity;
      RestockRun(s, log, RestockAt(pid, location), item, quantity) ==
      RestockRun(s.(quants := s.quants[j := q.(inventoryQuantity := count, applied := false)]),
                 log + [SearchQuants(pid, location), ReadQuant(q.id), WriteQuant(q.id, count)],
                 Applying(q.id, pid), item, quantity)
  {
    var q := s.quants[j];
    var count := OrZero(q.quantity) + quantity;
    var s1 := s.(quants := s.quants[j := q.(inventoryQuantity := count, applied := false)]);
    RecountFacts(s.quants, pid, location, j, count);
    RecountAt(s, log, pid, location, item, quantity, q.id, q.quantity, s1,
              log + [SearchQuants(pid, location), ReadQuant(q.id), WriteQuant(q.id, count)]);
  }

  /**
   * The apply step on an unapplied quant whose apply draws a fault the
   * backend reports: the quant ends up applied exactly when the backend
   * committed before the fault, and the balance is still reported.
   */
  lemma ApplyFaultStep(s: Store, log: seq<Call>, item: string, quantity: int, j: int, k: int,
                       quant: Id, pid: Id, m: string, committed: bool)
    requires UniqueQuantIds(s.quants) && UniqueProductIds(s.products)
    requires 0 <= j < |s.quants| && 0 <= k < |s.products| && !s.quants[j].applied
    requires quant == s.quants[j].id && pid == s.products[k].id
    requires s.faults == map[ApplyInventory(quant) := RpcFault(m, committed)]
    ensures var r := RestockRun(s, log, Applying(quant, pid), item, quantity);
      && r.store == s.(quants := s.quants[j := s.quants[j].(applied := committed)])
      && r.log == log + [ApplyInventory(quant), ReadProduct(pid)]
      && r.reply == AddedText(quantity, item, s.products[k].virtualAvailable)
  {
    RestockApplyStep(s, log, item, quantity, j, k);
    if !committed {
      assert s.quants[j := s.quants[j].(applied := false)] == s.quants;
    }
  }

  /**
   * A fault the backend reports on apply is swallowed: the count stays
   * written, applied exactly when the backend committed the apply before the
   * fault, and the balance is still read and reported.
   */
  lemma RestockSwallowsApplyFault(s: Store, log: seq<Call>, item: string, quantity: int, k: int, j: int,
                                  m: string, committed: bool)
    requires UniqueProductIds(s.products) && UniqueQuantIds(s.quants)
    requires FirstMatchAt(s.products, item, k) && |s.internalLocations| > 0
    requires FirstQuantAt(s.quants, s.products[k].id, s.internalLocations[0], j)
    requires s.faults == map[ApplyInventory(s.quants[j].id) := RpcFault(m, committed)]
    ensures var pid, location, q := s.products[k].id, s.internalLocations[0], s.quants[j];
      var count := OrZero(q.quantity) + quantity;
      var r := RestockRun(s, log, RestockStart, item, quantity);
      && r.store == s.(quants := s.quants[j := q.(inventoryQuantity := count, applied := committed)])
      && r.log == log + [Authenticate, SearchProducts(item), SearchInternalLocations, SearchQuants(pid, location),
                         ReadQuant(q.id), WriteQuant(q.id, count), ApplyInventory(q.id), ReadProduct(pid)]
      && r.reply == AddedText(quantity, item, s.products[k].virtualAvailable)
  {
    var pid, location, q := s.products[k].id, s.internalLocations[0], s.quants[j];
    var count := OrZero(q.quantity) + quantity;
    var c3 := log + [Authenticate, SearchProducts(item), SearchInternalLocations];
    RestockReachesLocation(s, log, item, quantity, k);
    RestockApplyFaultFrom(s, c3, location, item, quantity, k, j, m, committed);
    assert c3 + [SearchQuants(pid, location), ReadQuant(q.id), WriteQuant(q.id, count), ApplyInventory(q.id), ReadProduct(pid)] ==
      log + [Authenticate, SearchProducts(item), SearchInternalLocations, SearchQuants(pid, location),
             ReadQuant(q.id), WriteQuant(q.id, count), ApplyInventory(q.id), ReadProduct(pid)];
  }

  /**
   * Restocking a product with no quant at the first internal location, with
   * no failure: exactly one quant is created there, counting the requested
   * amount, and applied.
   */
  lemma RestockCreatesQuant(s: Store, log: seq<Call>, item: string, quantity: int, k: int)
    requires WellFormed(s) && s.faults == map[]
    requires FirstMatchAt(s.products, item, k) && |s.internalLocations| > 0
    requires forall j :: 0 <= j < |s.quants| ==> !At(s.quants[j], s.products[k].id, s.internalLocations[0])
    requires FitsXmlRpcInt(quantity)
    ensures var n, pid, location := s.nextId, s.products[k].id, s.internalLocations[0];
      var r := RestockRun(s, log, RestockStart, item, quantity);
      && r.store == s.(quants := s.quants + [Quant(n, pid, location, None, quantity, true)], nextId := n + 1)
      && r.log == log + [Authenticate, SearchProducts(item), SearchInternalLocations, SearchQuants(pid, location),
                         CreateQuant(pid, location, quantity), ApplyInventory(n), ReadProduct(pid)]
      && r.reply == AddedText(quantity, item, s.products[k].virtualAvailable)
  {
    var n, pid, location := s.nextId, s.products[k].id, s.internalLocations[0];
    var c3 := log + [Authenticate, SearchProducts(item), SearchInternalLocations];
    var c5 := c3 + [SearchQuants(pid, location), CreateQuant(pid, location, quantity)];
    var s1 := s.(quants := s.quants + [Quant(n, pid, location, None, quantity, false)], nextId := n + 1);
    RestockReachesLocation(s, log, item, quantity, k);
    RestockCreateStep(s, c3, pid, location, item, quantity);
    assert s1.quants[|s.quants|].id == n;
    RestockApplyStep(s1, c5, item, quantity, |s.quants|, k);
    assert s1.quants[|s.quants| := s1.quants[|s.quants|].(applied := true)] ==
      s.quants + [Quant(n, pid, location, None, quantity, true)];
    assert c5 + [ApplyInventory(n), ReadProduct(pid)] ==
      log + [Authenticate, SearchProducts(item), SearchInternalLocations, SearchQuants(pid, location),
             CreateQuant(pid, location, quantity), ApplyInventory(n), ReadProduct(pid)];
  }

  /**
   * From the quant search on, with the apply failing other than by a fault
   * the backend reports: the command ends in an error, the count applied
   * only if the backend carried the apply out and the reply was lost.
   */
  lemma RestockTransportFaultFrom(s: Store, log: seq<Call>, pid: Id, location: Id, item: string, quantity: int, j: int, f: Fault)
    requires UniqueQuantIds(s.quants)
    requires FirstQuantAt(s.quants, pid, location, j)
    requires s.faults == map[ApplyInventory(s.quants[j].id) := f] && !f.RpcFault?
    ensures var q := s.quants[j];
      var r := RestockRun(s, log, RestockAt(pid, location), item, quantity);
      && r.store == s.(quants := s.quants[j := q.(inventoryQuantity := OrZero(q.quantity) + quantity, applied := f.ReplyLost?)])
      && r.reply == RestockErrorText(f.text)
  {
    var q := s.quants[j];
    var count := OrZero(q.quantity) + quantity;
    var c3 := log + [SearchQuants(pid, location), ReadQuant(q.id), WriteQuant(q.id, count)];
    var s1 := s.(quants := s.quants[j := q.(inventoryQuantity := count, applied := false)]);
    RecountHop(s, log, pid, location, item, quantity, j);
    if f.ReplyLost? {
      MarkAppliedAt(s1.quants, j);
    }
  }

  /**
   * Only a fault the backend reports is swallowed on apply: any other
   * failure there ends the command with a "Restock Error" reply, the count
   * written, and applied only if the backend carried the apply out and the
   * reply was lost.
   */
  lemma RestockApplyTransportFault(s: Store, log: seq<Call>, item: string, quantity: int, k: int, j: int, f: Fault)
    requires UniqueQuantIds(s.quants)
    requires FirstMatchAt(s.products, item, k) && |s.internalLocations| > 0
    requires FirstQuantAt(s.quants, s.products[k].id, s.internalLocations[0], j)
    requires s.faults == map[ApplyInventory(s.quants[j].id) := f] && !f.RpcFault?
    ensures var q := s.quants[j];
      var r := RestockRun(s, log, RestockStart, item, quantity);
      && r.store == s.(quants := s.quants[j := q.(inventoryQuantity := OrZero(q.quantity) + quantity, applied := f.ReplyLost?)])
      && r.reply == RestockErrorText(f.text)
  {
    var c3 := log + [Authenticate, SearchProducts(item), SearchInternalLocations];
    RestockReachesLocation(s, log, item, quantity, k);
    RestockTransportFaultFrom(s, c3, s.products[k].id, s.internalLocations[0], item, quantity, j, f);
  }

  /**
   * A new quant whose count lies outside the XML-RPC `int` range cannot be
   * sent: the command ends in a "Restock Error" before any quant is touched.
   */
  lemma RestockQuantityOutOfRange(s: Store, log: seq<Call>, item: string, quantity: int, k: int)
    requires s.faults == map[]
    requires FirstMatchAt(s.products, item, k) && |s.internalLocations| > 0
    requires forall j :: 0 <= j < |s.quants| ==> !At(s.quants[j], s.products[k].id, s.internalLocations[0])
    requires !FitsXmlRpcInt(quantity)
    ensures var r := RestockRun(s, log, RestockStart, item, quantity);
      && r.store == s
      && r.reply == RestockErrorText(IntLimitText)
  {
    var pid, location := s.products[k].id, s.internalLocations[0];
    var c3 := log + [Authenticate, SearchProducts(item), SearchInternalLocations];
    RestockReachesLocation(s, log, item, quantity, k);
    QuantSearchEmpty(s.quants, pid, location);
    assert RestockRun(s, c3, RestockAt(pid, location), item, quantity) ==
      RestockRun(s, c3 + [SearchQuants(pid, location)], NewCounting(pid, location), item, quantity);
  }

  /** No internal location: indexing the empty search result fails, before any quant is touched. */
  lemma RestockWithoutLocation(s: Store, log: seq<Call>, item: string, quantity: int, k: int)
    requires s.faults == map[]
    requires FirstMatchAt(s.products, item, k) && s.internalLocations == []
    ensures var r := RestockRun(s, log, RestockStart, item, quantity);
      && r.store == s
      && r.log == log + [Authenticate, SearchProducts(item), SearchInternalLocations]
      && r.reply == RestockErrorText(IndexErrorText)
  {
    LookupPicksFirst(s.products, item, k);
    var c2 := log + [Authenticate] + [SearchProducts(item)];
    assert RestockRun(s, log, RestockStart, item, quantity) == RestockRun(s, c2, RestockFound(s.products[k].id), item, quantity);
    assert c2 + [SearchInternalLocations] == log + [Authenticate, SearchProducts(item), SearchInternalLocations];
  }

  /**
   * `m` is what `str(e)` gives for one of the faults the backend may raise,
   * or for the client's refusal of an `int` out of the XML-RPC range.
   */
  predicate IsFaultText(faults: map<Call, Fault>, m: string) {
    m == IntLimitText || exists c :: c in faults && faults[c].text == m
  }

  /** The replies `make_sale` can give. */
  ghost predicate IsSaleReply(reply: string, faults: map<Call, Fault>, item: string, quantity: int) {
    || reply == NotFoundText(item)
    || (exists v :: reply == SoldText(quantity, item, v))
    || (exists m :: reply == SaleErrorText(m) && (m == IndexErrorText || IsFaultText(faults, m)))
  }

  /** The replies `add_stock` can give. */
  ghost predicate IsRestockReply(reply: string, faults: map<Call, Fault>, item: string, quantity: int) {
    || reply == NotFoundText(item)
    || (exists v :: reply == AddedText(quantity, item, v))
    || (exists m :: reply == RestockErrorText(m) && (m == IndexErrorText || IsFaultText(faults, m)))
  }

  /**
   * `make_sale` never lets a failure escape: whatever happens, the reply is
   * "not found", the sale report, or "Sale Error: " followed by the index
   * error or the text of a fault the backend raised.
   */
  lemma {:induction false} SaleReplies(s: Store, log: seq<Call>, step: SaleStep, item: string, quantity: int)
    ensures IsSaleReply(SaleRun(s, log, step, item, quantity).reply, s.faults, item, quantity)
    decreases SaleStepsLeft(step)
  {
    var r := SaleRun(s, log, step, item, quantity);
    match step
    case SaleStart =>
      var ids := MatchingProducts(s.products, item);
      if Authenticate in s.faults {
        assert r.reply == SaleErrorText(s.faults[Authenticate].text);
      } else if SearchProducts(item) in s.faults {
        assert r.reply == SaleErrorText(s.faults[SearchProducts(item)].text);
      } else if |ids| > 0 {
        SaleReplies(s, log + [Authenticate] + [SearchProducts(item)], SaleFound(ids[0]), item, quantity);
      }
    case SaleFound(pid) =>
      if SearchPartners in s.faults {
        assert r.reply == SaleErrorText(s.faults[SearchPartners].text);
      } else if |s.partners| > 0 {
        SaleReplies(s, log + [SearchPartners], SaleOrdering(s.partners[0], pid), item, quantity);
      }
    case SaleOrdering(partner, pid) =>
      var n := s.nextId;
      var s1 := s.(orders := s.orders + [Order(n, partner, false)], nextId := n + 1);
      var s2 := s1.(lines := s1.lines + [OrderLine(n + 1, n, pid, quantity)], nextId := n + 2);
      if CreateOrder(partner) in s.faults {
        assert r.reply == SaleErrorText(s.faults[CreateOrder(partner)].text);
      } else if !FitsXmlRpcInt(quantity) {
        assert r.reply == SaleErrorText(IntLimitText);
      } else if CreateOrderLine(n, pid, quantity) in s.faults {
        assert r.reply == SaleErrorText(s.faults[CreateOrderLine(n, pid, quantity)].text);
      } else if ConfirmOrder(n) in s.faults {
        assert r.reply == SaleErrorText(s.faults[ConfirmOrder(n)].text);
      } else {
        var c3 := log + [CreateOrder(partner)] + [CreateOrderLine(n, pid, quantity)] + [ConfirmOrder(n)];
        SaleReplies(s2.(orders := MarkConfirmed(s2.orders, n)), c3, SaleReporting(pid), item, quantity);
      }
    case SaleReporting(pid) =>
      if ReadProduct(pid) in s.faults {
        assert r.reply == SaleErrorText(s.faults[ReadProduct(pid)].text);
      }
  }

  /** `make_sale` changes the orders, the order lines and the id counter, and nothing else. */
  lemma {:induction false} SaleTouchesOnlySales(s: Store, log: seq<Call>, step: SaleStep, item: string, quantity: int)
    ensures SalesOnly(s, SaleRun(s, log, step, item, quantity).store)
    decreases SaleStepsLeft(step)
  {
    match step
    case SaleStart =>
      var ids := MatchingProducts(s.products, item);
      if Authenticate !in s.faults && SearchProducts(item) !in s.faults && |ids| > 0 {
        SaleTouchesOnlySales(s, log + [Authenticate] + [SearchProducts(item)], SaleFound(ids[0]), item, quantity);
      }
    case SaleFound(pid) =>
      if SearchPartners !in s.faults && |s.partners| > 0 {
        SaleTouchesOnlySales(s, log + [SearchPartners], SaleOrdering(s.partners[0], pid), item, quantity);
      }
    case SaleOrdering(partner, pid) =>
      var n := s.nextId;
      var s1 := s.(orders := s.orders + [Order(n, partner, false)], nextId := n + 1);
      var s2 := s1.(lines := s1.lines + [OrderLine(n + 1, n, pid, quantity)], nextId := n + 2);
      if CreateOrder(partner) !in s.faults && CreateOrderLine(n, pid, quantity) !in s.faults && ConfirmOrder(n) !in s.faults {
        var s3 := s2.(orders := MarkConfirmed(s2.orders, n));
        var c3 := log + [CreateOrder(partner)] + [CreateOrderLine(n, pid, quantity)] + [ConfirmOrder(n)];
        SaleTouchesOnlySales(s3, c3, SaleReporting(pid), item, quantity);
      }
    case SaleReporting(pid) =>
  }

  /** `add_stock` changes the stock quants and the id counter, and nothing else. */
  lemma {:induction false} RestockTouchesOnlyStock(s: Store, log: seq<Call>, step: RestockStep, item: string, quantity: int)
    ensures StockOnly(s, RestockRun(s, log, step, item, quantity).store)
    decreases RestockStepsLeft(step)
  {
    match step
    case RestockStart =>
      var ids := MatchingProducts(s.products, item);
      if Authenticate !in s.faults && SearchProducts(item) !in s.faults && |ids| > 0 {
        RestockTouchesOnlyStock(s, log + [Authenticate] + [SearchProducts(item)], RestockFound(ids[0]), item, quantity);
      }
    case RestockFound(pid) =>
      if SearchInternalLocations !in s.faults && |s.internalLocations| > 0 {
        RestockTouchesOnlyStock(s, log + [SearchInternalLocations], RestockAt(pid, s.internalLocations[0]), item, quantity);
      }
    case RestockAt(pid, location) =>
      var ids := QuantsAt(s.quants, pid, location);
      var c1 := log + [SearchQuants(pid, location)];
      if SearchQuants(pid, location) !in s.faults {
        if |ids| > 0 {
          RestockTouchesOnlyStock(s, c1, Recounting(ids[0], pid), item, quantity);
        } else {
          RestockTouchesOnlyStock(s, c1, NewCounting(pid, location), item, quantity);
        }
      }
    case Recounting(quant, pid) =>
      RecountTouchesOnlyStock(s, log, quant, pid, item, quantity);
    case NewCounting(pid, location) =>
      NewCountTouchesOnlyStock(s, log, pid, location, item, quantity);
    case Applying(quant, pid) =>
      ApplyTouchesOnlyStock(s, log, quant, pid, item, quantity);
  }

  /** The last step of `add_stock`: only the stock quants change. */
  lemma ApplyTouchesOnlyStock(s: Store, log: seq<Call>, quant: Id, pid: Id, item: string, quantity: int)
    ensures StockOnly(s, RestockRun(s, log, Applying(quant, pid), item, quantity).store)
  {
  }

  /** Recounting an existing quant: only the stock quants change. */
  lemma RecountTouchesOnlyStock(s: Store, log: seq<Call>, quant: Id, pid: Id, item: string, quantity: int)
    ensures StockOnly(s, RestockRun(s, log, Recounting(quant, pid), item, quantity).store)
  {
    var rows := QuantitiesOf(s.quants, quant);
    if ReadQuant(quant) !in s.faults && |rows| > 0 {
      var count := OrZero(rows[0]) + quantity;
      if WriteQuant(quant, count) !in s.faults {
        var s2 := s.(quants := SetCount(s.quants, quant, count));
        var c2 := log + [ReadQuant(quant)] + [WriteQuant(quant, count)];
        assert RestockRun(s, log, Recounting(quant, pid), item, quantity)
            == RestockRun(s2, c2, Applying(quant, pid), item, quantity);
        ApplyTouchesOnlyStock(s2, c2, quant, pid, item, quantity);
      }
    }
  }

  /** Counting into a new quant: only the stock quants and the id counter change. */
  lemma NewCountTouchesOnlyStock(s: Store, log: seq<Call>, pid: Id, location: Id, item: string, quantity: int)
    ensures StockOnly(s, RestockRun(s, log, NewCounting(pid, location), item, quantity).store)
  {
    var n := s.nextId;
    if CreateQuant(pid, location, quantity) !in s.faults {
      var s1 := s.(quants := s.quants + [Quant(n, pid, location, None, quantity, false)], nextId := n + 1);
      ApplyTouchesOnlyStock(s1, log + [CreateQuant(pid, location, quantity)], n, pid, item, quantity);
    }
  }

  /**
   * `add_stock` never lets a failure escape: whatever happens, the reply is
   * "not found", the restock report, or "Restock Error: " followed by the
   * index error or the text of a fault the backend raised.
   */
  lemma {:induction false} RestockReplies(s: Store, log: seq<Call>, step: RestockStep, item: string, quantity: int)
    ensures IsRestockReply(RestockRun(s, log, step, item, quantity).reply, s.faults, item, quantity)
    decreases RestockStepsLeft(step)
  {
    var r := RestockRun(s, log, step, item, quantity);
    match step
    case RestockStart =>
      var ids := MatchingProducts(s.products, item);
      if Authenticate in s.faults {
        assert r.reply == RestockErrorText(s.faults[Authenticate].text);
      } else if SearchProducts(item) in s.faults {
        assert r.reply == RestockErrorText(s.faults[SearchProducts(item)].text);
      } else if |ids| > 0 {
        RestockReplies(s, log + [Authenticate] + [SearchProducts(item)], RestockFound(ids[0]), item, quantity);
      }
    case RestockFound(pid) =>
      if SearchInternalLocations in s.faults {
        assert r.reply == RestockErrorText(s.faults[SearchInternalLocations].text);
      } else if |s.internalLocations| > 0 {
        RestockReplies(s, log + [SearchInternalLocations], RestockAt(pid, s.internalLocations[0]), item, quantity);
      }
    case RestockAt(pid, location) =>
      var c1 := log + [SearchQuants(pid, location)];
      var ids := QuantsAt(s.quants, pid, location);
      if SearchQuants(pid, location) in s.faults {
        assert r.reply == RestockErrorText(s.faults[SearchQuants(pid, location)].text);
      } else if |ids| > 0 {
        CountReplies(s, c1, Recounting(ids[0], pid), item, quantity);
      } else {
        CountReplies(s, c1, NewCounting(pid, location), item, quantity);
      }
    case _ =>
      CountReplies(s, log, step, item, quantity);
  }

  /** `RestockReplies` for the steps from the quant read or creation on. */
  lemma CountReplies(s: Store, log: seq<Call>, step: RestockStep, item: string, quantity: int)
    requires step.Recounting? || step.NewCounting? || step.Applying?
    ensures IsRestockReply(RestockRun(s, log, step, item, quantity).reply, s.faults, item, quantity)
  {
    match step
    case Recounting(quant, pid) => RecountReplies(s, log, quant, pid, item, quantity);
    case NewCounting(pid, location) => CreateReplies(s, log, pid, location, item, quantity);
    case Applying(quant, pid) => ApplyReplies(s, log, quant, pid, item, quantity);
  }

  /** The replies of a recount: a failed read or write, or whatever the apply step replies. */
  lemma RecountReplies(s: Store, log: seq<Call>, quant: Id, pid: Id, item: string, quantity: int)
    ensures IsRestockReply(RestockRun(s, log, Recounting(quant, pid), item, quantity).reply, s.faults, item, quantity)
  {
    var r := RestockRun(s, log, Recounting(quant, pid), item, quantity);
    var rows := QuantitiesOf(s.quants, quant);
    if ReadQuant(quant) in s.faults {
      assert r.reply == RestockErrorText(s.faults[ReadQuant(quant)].text);
    } else if |rows| > 0 {
      var count := OrZero(rows[0]) + quantity;
      if WriteQuant(quant, count) in s.faults {
        assert r.reply == RestockErrorText(s.faults[WriteQuant(quant, count)].text);
      } else {
        var c2 := log + [ReadQuant(quant)] + [WriteQuant(quant, count)];
        ApplyReplies(s.(quants := SetCount(s.quants, quant, count)), c2, quant, pid, item, quantity);
      }
    }
  }

  /** The replies of a quant creation: a failed create, or whatever the apply step replies. */
  lemma CreateReplies(s: Store, log: seq<Call>, pid: Id, location: Id, item: string, quantity: int)
    ensures IsRestockReply(RestockRun(s, log, NewCounting(pid, location), item, quantity).reply, s.faults, item, quantity)
  {
    var n := s.nextId;
    if !FitsXmlRpcInt(quantity) {
      assert RestockRun(s, log, NewCounting(pid, location), item, quantity).reply == RestockErrorText(IntLimitText);
    } else if CreateQuant(pid, location, quantity) in s.faults {
      assert RestockRun(s, log, NewCounting(pid, location), item, quantity).reply ==
        RestockErrorText(s.faults[CreateQuant(pid, location, quantity)].text);
    } else {
      var s1 := s.(quants := s.quants + [Quant(n, pid, location, None, quantity, false)], nextId := n + 1);
      ApplyReplies(s1, log + [CreateQuant(pid, location, quantity)], n, pid, item, quantity);
    }
  }

  /** The replies of the apply step: a failure on apply other than a backend fault, a failed balance read, or the report. */
  lemma ApplyReplies(s: Store, log: seq<Call>, quant: Id, pid: Id, item: string, quantity: int)
    ensures IsRestockReply(RestockRun(s, log, Applying(quant, pid), item, quantity).reply, s.faults, item, quantity)
  {
    var r := RestockRun(s, log, Applying(quant, pid), item, quantity);
    var apply := ApplyInventory(quant);
    if apply in s.faults && !s.faults[apply].RpcFault? {
      assert r.reply == RestockErrorText(s.faults[apply].text);
    } else if ReadProduct(pid) in s.faults {
      assert r.reply == RestockErrorText(s.faults[ReadProduct(pid)].text);
    }
  }
}

=== FILE: numerals.dfy ===
/**
 * Decimal integers as Python writes and reads them: `str(n)` for an `int`
 * (used when a reply shows the quantity) and `int(s)` on a string (used by
 * the router on the quantity segment of the classifier's command).
 */
module Numerals {
  import opened Wrappers
  import opened Text

  predicate IsDigit(c: char) {
    '0' <= c <= '9'
  }

  function DigitValue(c: char): (d: nat)
    requires IsDigit(c)
    ensures d < 10
  {
    c as int - '0' as int
  }

  function DigitChar(d: nat): (c: char)
    requires d < 10
    ensures IsDigit(c) && DigitValue(c) == d
  {
    ('0' as int + d) as char
  }

  /** `str(n)` for `n >= 0`: no sign, no leading zeros. */
  function NatToString(n: nat): (s: string)
    ensures |s| >= 1
    ensures forall i :: 0 <= i < |s| ==> IsDigit(s[i])
    ensures |s| > 1 ==> s[0] != '0'
    decreases n
  {
    if n < 10 then [DigitChar(n)] else NatToString(n / 10) + [DigitChar(n % 10)]
  }

  /** `str(n)` for any Python `int`: a minus sign exactly when `n` is negative, then the digits of `|n|`. */
  function IntToString(n: int): (s: string)
    ensures |s| >= 1
    ensures s[0] == '-' <==> n < 0
  {
    if n < 0 then "-" + NatToString(-n) else NatToString(n)
  }

  /** Every character of `ds` is a decimal digit. */
  predicate AllDigits(ds: string) {
    forall i :: 0 <= i < |ds| ==> IsDigit(ds[i])
  }

  /** The value of a string of decimal digits, most significant first. */
  function ValueOf(ds: string): nat
    requires forall i :: 0 <= i < |ds| ==> IsDigit(ds[i])
    decreases |ds|
  {
    if ds == [] then 0 else 10 * ValueOf(ds[..|ds| - 1]) + DigitValue(ds[|ds| - 1])
  }

  /** Two underscores in a row start at `i`. */
  predicate UnderscorePairAt(t: string, i: int)
    requires 0 <= i < |t| - 1
  {
    t[i] == '_' && t[i + 1] == '_'
  }

  /**
   * Python's digit grammar for `int()` in base 10: digits, with single
   * underscores allowed between two digits.
   */
  predicate IsDigitGroup(t: string) {
    && |t| > 0
    && IsDigit(t[0]) && IsDigit(t[|t| - 1])
    && (forall i :: 0 <= i < |t| ==> IsDigit(t[i]) || t[i] == '_')
    && (forall i :: 0 <= i < |t| - 1 ==> !UnderscorePairAt(t, i))
  }

  /** The digits of a digit group, underscores removed. */
  function DropUnderscores(t: string): (ds: string)
    requires forall i :: 0 <= i < |t| ==> IsDigit(t[i]) || t[i] == '_'
    ensures forall i :: 0 <= i < |ds| ==> IsDigit(ds[i])
    ensures (forall i :: 0 <= i < |t| ==> IsDigit(t[i])) ==> ds == t
    decreases |t|
  {
    if t == [] then []
    else if t[0] == '_' then DropUnderscores(t[1..])
    else [t[0]] + DropUnderscores(t[1..])
  }

  /** A character `int()` may accept: whitespace it skips, a sign, a digit or an underscore. */
  predicate IsNumeralChar(c: char) {
    IsIntSpace(c) || IsDigit(c) || c == '+' || c == '-' || c == '_'
  }

  /**
   * The whitespace `int()` skips around a numeral. ASCII text reaches
   * CPython's parser unchanged, and the parser skips only `' '` and
   * `'\t'`..`'\r'`; other Unicode whitespace is first turned into `' '`.
   * So this is Python's whitespace without U+001C..U+001F, which `int()`
   * rejects although `str.isspace()` accepts them.
   */
  predicate IsIntSpace(c: char) {
    IsSpace(c) && !('\U{1C}' <= c <= '\U{1F}')
  }

  function IntTrimStart(s: string): (r: string)
    ensures |r| <= |s| && r == s[|s| - |r|..]
    ensures forall i :: 0 <= i < |s| - |r| ==> IsIntSpace(s[i])
    ensures r == [] || !IsIntSpace(r[0])
    decreases |s|
  {
    if s != [] && IsIntSpace(s[0]) then IntTrimStart(s[1..]) else s
  }

  function IntTrimEnd(s: string): (r: string)
    ensures |r| <= |s| && r == s[..|r|]
    ensures forall i :: |r| <= i < |s| ==> IsIntSpace(s[i])
    ensures r == [] || !IsIntSpace(r[|r| - 1])
    decreases |s|
  {
    if s != [] && IsIntSpace(s[|s| - 1]) then IntTrimEnd(s[..|s| - 1]) else s
  }

  /** The text `int()` parses: its input without the whitespace it skips at either end. */
  function IntStrip(s: string): (r: string)
    ensures |r| <= |s|
    ensures r == [] || (!IsIntSpace(r[0]) && !IsIntSpace(r[|r| - 1]))
  {
    IntTrimEnd(IntTrimStart(s))
  }

  /**
   * `r` is the slice of `s` starting at offset `a`, and every character of
   * `s` outside that slice is whitespace `int()` skips.
   */
  predicate SliceBetweenIntSpace(s: string, r: string, a: int) {
    && 0 <= a && a + |r| <= |s|
    && r == s[a..a + |r|]
    && (forall i :: 0 <= i < a ==> IsIntSpace(s[i]))
    && (forall i :: a + |r| <= i < |s| ==> IsIntSpace(s[i]))
  }

  /** `IntStrip` keeps one contiguous slice of its input and drops only skipped whitespace around it. */
  lemma IntStripDropsOnlySpace(s: string)
    ensures exists a :: SliceBetweenIntSpace(s, IntStrip(s), a)
  {
    var t := IntTrimStart(s);
    var r := IntStrip(s);
    var a := |s| - |t|;
    assert r == t[..|r|];
    assert t == s[a..];
    forall i | a + |r| <= i < |s|
      ensures IsIntSpace(s[i])
    {
      assert s[i] == t[i - a];
    }
    assert SliceBetweenIntSpace(s, r, a);
  }

  /** A digit group read as a number; `None` for anything else. */
  function ParseUnsigned(t: string): (r: Option<nat>)
  {
    if IsDigitGroup(t) then Some(ValueOf(DropUnderscores(t))) else None
  }

  /** One optional sign followed by a digit group. */
  function ParseSigned(t: string): (r: Option<int>)
  {
    if |t| > 0 && (t[0] == '+' || t[0] == '-') then
      match ParseUnsigned(t[1..])
      case None => None
      case Some(v) => Some(if t[0] == '-' then -(v as int) else v as int)
    else
      match ParseUnsigned(t)
      case None => None
      case Some(v) => Some(v)
  }

  /**
   * `int(s)`: surrounding whitespace (`IsIntSpace`) is ignored, one optional sign, then a
   * digit group of at most `MaxStrDigits` digits. `None` is the `ValueError`
   * Python raises on anything else.
   */
  function ParseInt(s: string): (r: Option<int>)
  {
    var t := IntStrip(s);
    if DigitCount(t) > MaxStrDigits then None else ParseSigned(t)
  }

  /**
   * CPython's default limit on the digits of a decimal `int()` or `str()`
   * conversion (`sys.int_info.default_max_str_digits`); signs, underscores
   * and whitespace do not count.
   */
  const MaxStrDigits := 4300

  /** The number of decimal digits in `t`. */
  function DigitCount(t: string): (n: nat)
    ensures n <= |t|
    decreases |t|
  {
    if t == [] then 0 else (if IsDigit(t[0]) then 1 else 0) + DigitCount(t[1..])
  }

  /** In a run of digits, every character counts. */
  lemma {:induction false} AllDigitsCount(ds: string)
    requires AllDigits(ds)
    ensures DigitCount(ds) == |ds|
    decreases |ds|
  {
    if ds != [] {
      AllDigitsCount(ds[1..]);
    }
  }

  /** Reading back what `NatToString` wrote gives the same number. */
  lemma {:induction false} NatToStringValue(n: nat)
    ensures ValueOf(NatToString(n)) == n
    decreases n
  {
    if n >= 10 {
      NatToStringValue(n / 10);
      var s := NatToString(n);
      assert s[..|s| - 1] == NatToString(n / 10);
    }
  }

  /** A plain run of digits is a digit group whose digits are itself. */
  lemma DigitsAreGroup(ds: string)
    requires |ds| >= 1 && AllDigits(ds)
    ensures IsDigitGroup(ds) && DropUnderscores(ds) == ds
  {
  }

  /** Text that starts and ends with a digit has no whitespace to strip. */
  lemma StripNumeral(t: string)
    requires |t| >= 1 && !IsIntSpace(t[0]) && IsDigit(t[|t| - 1])
    ensures IntStrip(t) == t
  {
  }

  /** A run of digits, unsigned, reads as its value. */
  lemma SignedDigits(ds: string)
    requires |ds| >= 1 && AllDigits(ds)
    ensures ParseSigned(ds) == Some(ValueOf(ds) as int)
  {
    UnsignedDigits(ds);
    assert !(ds[0] == '+' || ds[0] == '-');
  }

  /** A run of digits after a minus sign reads as the negated value. */
  lemma NegatedDigits(ds: string)
    requires |ds| >= 1 && AllDigits(ds)
    ensures ParseSigned("-" + ds) == Some(-(ValueOf(ds) as int))
  {
    var t := "-" + ds;
    assert t[1..] == ds;
    UnsignedDigits(ds);
  }

  /** A run of digits is a digit group read as its value. */
  lemma UnsignedDigits(ds: string)
    requires |ds| >= 1 && AllDigits(ds)
    ensures ParseUnsigned(ds) == Some(ValueOf(ds))
  {
    DigitsAreGroup(ds);
  }

  /** Stripped text within the digit limit is read by `ParseSigned` alone. */
  lemma WithinLimitSigned(t: string)
    requires IntStrip(t) == t && DigitCount(t) <= MaxStrDigits
    ensures ParseInt(t) == ParseSigned(t)
  {
  }

  /** A plain run of digits reads as its value. */
  lemma ParseDigits(ds: string)
    requires 1 <= |ds| <= MaxStrDigits && AllDigits(ds)
    ensures ParseInt(ds) == Some(ValueOf(ds) as int)
  {
    StripNumeral(ds);
    AllDigitsCount(ds);
    WithinLimitSigned(ds);
    SignedDigits(ds);
  }

  /** A run of digits after a minus sign reads as the negated value. */
  lemma ParseNegativeDigits(ds: string)
    requires 1 <= |ds| <= MaxStrDigits && AllDigits(ds)
    ensures ParseInt("-" + ds) == Some(-(ValueOf(ds) as int))
  {
    var t := "-" + ds;
    StripNumeral(t);
    assert t[1..] == ds;
    AllDigitsCount(ds);
    WithinLimitSigned(t);
    NegatedDigits(ds);
  }

  /** `|n|`. */
  function Abs(n: int): nat {
    if n < 0 then -n else n
  }

  /** `n` has at most `MaxStrDigits` decimal digits, so `str(n)` and `int()` of it are allowed. */
  predicate WithinStrDigits(n: int) {
    |NatToString(Abs(n))| <= MaxStrDigits
  }

  /** `int(str(n)) == n` for every integer `n` within the digit limit. */
  lemma IntToStringRoundTrip(n: int)
    requires WithinStrDigits(n)
    ensures ParseInt(IntToString(n)) == Some(n)
  {
    var m := Abs(n);
    NatToStringValue(m);
    if n < 0 {
      ParseNegativeDigits(NatToString(m));
    } else {
      ParseDigits(NatToString(m));
    }
  }

  /** `int()` rejects any text holding a character outside the numeral alphabet. */
  lemma ParseIntAlphabet(s: string)
    requires ParseInt(s).Some?
    ensures forall i :: 0 <= i < |s| ==> IsNumeralChar(s[i])
  {
    var t := IntStrip(s);
    SignedAlphabet(t);
    IntStripDropsOnlySpace(s);
    var a :| SliceBetweenIntSpace(s, t, a);
    forall i | 0 <= i < |s|
      ensures IsNumeralChar(s[i])
    {
      if a <= i < a + |t| {
        assert s[i] == t[i - a];
      }
    }
  }

  /**
   * `int()` rejects any text holding one of the separators U+001C..U+001F,
   * even at either end, where `str.strip()` would have dropped it.
   */
  lemma SeparatorRejected(s: string, k: int)
    requires 0 <= k < |s| && '\U{1C}' <= s[k] <= '\U{1F}'
    ensures ParseInt(s) == None
  {
    if ParseInt(s).Some? {
      ParseIntAlphabet(s);
    }
  }

  /** What `ParseSigned` accepts holds only signs, digits and underscores. */
  lemma SignedAlphabet(t: string)
    requires ParseSigned(t).Some?
    ensures forall j :: 0 <= j < |t| ==> IsNumeralChar(t[j])
  {
    if |t| > 0 && (t[0] == '+' || t[0] == '-') {
      assert IsDigitGroup(t[1..]);
      forall j | 1 <= j < |t|
        ensures IsNumeralChar(t[j])
      {
        assert t[j] == t[1..][j - 1];
      }
    } else {
      assert IsDigitGroup(t);
    }
  }

  /** `int()` raises on a run of digits longer than the limit, signed or not. */
  lemma TooManyDigitsFail(ds: string)
    requires |ds| > MaxStrDigits && AllDigits(ds)
    ensures ParseInt(ds) == None
    ensures ParseInt("-" + ds) == None
  {
    var t := "-" + ds;
    StripNumeral(ds);
    StripNumeral(t);
    AllDigitsCount(ds);
    assert t[1..] == ds;
  }
}

=== FILE: router.dfy ===
/**
 * The WhatsApp webhook's router: the classifier's answer becomes an intent
 * string such as `SELL|Bread|5`; the router splits it on `|`, reads the
 * quantity, dispatches on the exact action token to one of the three
 * inventory commands, and wraps the reply text in the XML envelope the
 * messaging gateway expects.
 *
 * `RouteOf` is the decision the router takes on an intent string, `Dispatch`
 * what the chosen command then does to the backend, and `WhatsappReply` the
 * handler itself, proved to follow the two.
 */
module Router {
  import opened Wrappers
  import opened Text
  import opened Numerals
  import opened Backend
  import opened Inventory

  const SorryText := "🤖 Sorry, I didn't understand that. Try saying 'Sell 2 Bread' or 'Niuze Mkate'."

  const ActionText := "⚠️ I understood the item, but not the action."

  /** What the classifier answers when it fails or does not understand. */
  const UnknownIntent := "UNKNOWN"

  /** The router's decision on an intent string. */
  datatype Route =
    | Sell(item: string, quantity: int)
    | Add(item: string, quantity: int)
    | Check(item: string)
    | OtherAction
    | NoCommand

  /**
   * `int()` rejected the quantity segment. The `ValueError` is raised outside
   * any handler, so the request fails instead of producing a reply.
   */
  datatype RouteError = InvalidQuantity(segment: string)

  /**
   * The intent string from the classifier's answer: the answer's text with
   * surrounding whitespace removed, or `UNKNOWN` when the call failed (`None`).
   */
  function IntentOf(answer: Option<string>): (intent: string)
    ensures answer.Some? ==> |intent| <= |answer.value|
  {
    match answer
    case None => UnknownIntent
    case Some(content) => Strip(content)
  }

  /** The decision table: an exact, case-sensitive match on the action token. */
  function Decide(action: string, item: string, quantity: int): (r: Route)
    ensures r.Sell? || r.Add? || r.Check? || r.OtherAction?
  {
    if action == "SELL" then Sell(item, quantity)
    else if action == "ADD" then Add(item, quantity)
    else if action == "CHECK" then Check(item)
    else OtherAction
  }

  /**
   * The router block of `whatsapp_reply`: no `|` means no command; otherwise
   * the action is the first `|`-separated field, the item the second, and the
   * quantity `int()` of the third when there is one and 0 when there is not.
   * The quantity is read before the action is looked at.
   */
  function RouteOf(intent: string): (r: Result<Route, RouteError>)
    ensures r == Ok(NoCommand) <==> '|' !in intent
    ensures r.Err? ==> ParseInt(r.error.segment) == None
  {
    if '|' !in intent then Ok(NoCommand)
    else
      var parts := Split(intent, '|');
      if |parts| > 2 then
        match ParseInt(parts[2])
        case None => Err(InvalidQuantity(parts[2]))
        case Some(quantity) => Ok(Decide(parts[0], parts[1], quantity))
      else Ok(Decide(parts[0], parts[1], 0))
  }

  /**
   * What the chosen command does: the backend afterwards, the log, and the
   * reply text. Only selling and restocking change the backend, and a reply
   * without a command calls nothing.
   */
  function Dispatch(s: Store, log: seq<Call>, route: Route): (r: Run)
    ensures !route.Sell? && !route.Add? ==> r.store == s
    ensures route.OtherAction? || route.NoCommand? ==> r.log == log
  {
    match route
    case Sell(item, quantity) => SaleRun(s, log, SaleStart, item, quantity)
    case Add(item, quantity) => RestockRun(s, log, RestockStart, item, quantity)
    case Check(item) => CheckIsReadOnly(s, log, item); CheckRun(s, log, item)
    case OtherAction => Run(s, log, ActionText)
    case NoCommand => Run(s, log, SorryText)
  }

  /** The response body: the reply text inside the gateway's XML envelope, unescaped. */
  function Envelope(text: string): (body: string)
    ensures |body| == |text| + 40
    ensures body[19..|body| - 21] == text
  {
    "<Response><Message>" + text + "</Message></Response>"
  }

  /** `whatsapp_reply`, given the classifier's answer to the user's message. */
  method WhatsappReply(odoo: Odoo, answer: Option<string>) returns (r: Result<string, RouteError>)
    modifies odoo
    ensures match RouteOf(IntentOf(answer))
      case Err(e) => r == Err(e) && odoo.State() == old(odoo.State()) && odoo.log == old(odoo.log)
      case Ok(route) =>
        var run := Dispatch(old(odoo.State()), old(odoo.log), route);
        r == Ok(Envelope(run.reply)) && odoo.State() == run.store && odoo.log == run.log
  {
    var intent := IntentOf(answer);
    if '|' !in intent {
      return Ok(Envelope(SorryText));
    }
    var parts := Split(intent, '|');
    var action, item := parts[0], parts[1];
    var quantity := 0;
    if |parts| > 2 {
      var parsed := ParseInt(parts[2]);
      if parsed.None? {
        return Err(InvalidQuantity(parts[2]));
      }
      quantity := parsed.value;
    }
    var text := Perform(odoo, action, item, quantity);
    return Ok(Envelope(text));
  }

  /** The dispatch on the action token, and the command it runs. */
  method Perform(odoo: Odoo, action: string, item: string, quantity: int) returns (text: string)
    modifies odoo
    ensures var run := Dispatch(old(odoo.State()), old(odoo.log), Decide(action, item, quantity));
      text == run.reply && odoo.State() == run.store && odoo.log == run.log
  {
    if action == "SELL" {
      text := MakeSale(odoo, item, quantity);
    } else if action == "ADD" {
      text := AddStock(odoo, item, quantity);
    } else if action == "CHECK" {
      text := SearchProduct(odoo, item);
    } else {
      text := ActionText;
    }
  }

  /** The fields of a command in the formats the classifier is told to produce. */
  function FieldsOf(route: Route): (fields: seq<string>)
    requires route.Sell? || route.Add? || route.Check?
  {
    match route
    case Sell(item, quantity) => ["SELL", item, IntToString(quantity)]
    case Add(item, quantity) => ["ADD", item, IntToString(quantity)]
    case Check(item) => ["CHECK", item]
  }

  /** A command written out: its fields joined by `|`. */
  function Format(route: Route): (intent: string)
    requires route.Sell? || route.Add? || route.Check?
  {
    Join(FieldsOf(route), '|')
  }

  /** A failed or uncomprehending classifier leads to the apology. */
  lemma ClassifierFailureIsNoCommand(answer: Option<string>)
    requires answer.None? || answer == Some(UnknownIntent)
    ensures RouteOf(IntentOf(answer)) == Ok(NoCommand)
  {
    assert IntentOf(answer) == UnknownIntent by {
      if answer.Some? {
        StripKeeps(UnknownIntent);
      }
    }
    assert '|' !in UnknownIntent;
  }

  /** Only an intent with a `|` becomes a command, and without one the backend is not called. */
  lemma NoSeparatorNoCall(s: Store, log: seq<Call>, intent: string)
    ensures RouteOf(intent) == Ok(NoCommand) <==> '|' !in intent
    ensures '|' !in intent ==> Dispatch(s, log, NoCommand) == Run(s, log, SorryText)
  {
    if '|' in intent {
      var parts := Split(intent, '|');
      if |parts| > 2 && ParseInt(parts[2]).Some? {
        assert RouteOf(intent) == Ok(Decide(parts[0], parts[1], ParseInt(parts[2]).value));
      }
    }
  }

  /**
   * Each command keeps to its own tables: selling touches only orders and
   * order lines, restocking only stock quants, and checking or any reply
   * without a command touches nothing.
   */
  lemma CommandsKeepToTheirTables(s: Store, log: seq<Call>, route: Route)
    ensures route.Sell? ==> SalesOnly(s, Dispatch(s, log, route).store)
    ensures route.Add? ==> StockOnly(s, Dispatch(s, log, route).store)
    ensures !route.Sell? && !route.Add? ==> Dispatch(s, log, route).store == s
  {
    match route
    case Sell(item, quantity) => SaleTouchesOnlySales(s, log, SaleStart, item, quantity);
    case Add(item, quantity) => RestockTouchesOnlyStock(s, log, RestockStart, item, quantity);
    case Check(item) => CheckIsReadOnly(s, log, item);
    case OtherAction =>
    case NoCommand =>
  }

  /** The action table is exact and case-sensitive, and an unknown action calls nothing. */
  lemma DecideIsExact(s: Store, log: seq<Call>, action: string, item: string, quantity: int)
    ensures Decide(action, item, quantity).Sell? <==> action == "SELL"
    ensures Decide(action, item, quantity).Add? <==> action == "ADD"
    ensures Decide(action, item, quantity).Check? <==> action == "CHECK"
    ensures Decide(action, item, quantity).OtherAction? ==>
      Dispatch(s, log, Decide(action, item, quantity)) == Run(s, log, ActionText)
  {
  }

  /** No field holds the separator. */
  predicate SeparatorFree(fields: seq<string>) {
    forall i :: 0 <= i < |fields| ==> '|' !in fields[i]
  }

  /**
   * On the fields of an intent: the action is the first, the item the
   * second, and the quantity is `int()` of the third when there is one and 0
   * when there is not; a third field `int()` rejects is an error whatever
   * the action.
   */
  lemma RouteFields(fields: seq<string>)
    requires |fields| >= 2
    requires SeparatorFree(fields)
    ensures RouteOf(Join(fields, '|')) ==
      if |fields| == 2 then Ok(Decide(fields[0], fields[1], 0))
      else match ParseInt(fields[2])
        case None => Err(InvalidQuantity(fields[2]))
        case Some(quantity) => Ok(Decide(fields[0], fields[1], quantity))
  {
    SplitJoin(fields, '|');
    assert Join(fields, '|')[|fields[0]|] == '|';
  }

  /** Segments after the third do not change the outcome. */
  lemma RouteIgnoresExtraSegments(fields: seq<string>)
    requires |fields| >= 3
    requires SeparatorFree(fields)
    ensures RouteOf(Join(fields, '|')) == RouteOf(Join(fields[..3], '|'))
  {
    RouteFields(fields);
    RouteFields(fields[..3]);
  }

  /** A command in the classifier's format is routed to exactly that command. */
  lemma RouteFormat(route: Route)
    requires route.Sell? || route.Add? || route.Check?
    requires '|' !in route.item
    requires route.Sell? || route.Add? ==> WithinStrDigits(route.quantity)
    ensures RouteOf(Format(route)) == Ok(route)
  {
    match route
    case Sell(item, quantity) => RouteCommand("SELL", item, quantity);
    case Add(item, quantity) => RouteCommand("ADD", item, quantity);
    case Check(item) => RouteFields(["CHECK", item]);
  }

  /** Three fields whose third is a written quantity route on their action with that quantity. */
  lemma RouteCommand(action: string, item: string, quantity: int)
    requires '|' !in action && '|' !in item
    requires WithinStrDigits(quantity)
    ensures RouteOf(Join([action, item, IntToString(quantity)], '|')) == Ok(Decide(action, item, quantity))
  {
    QuantityRoundTrip(quantity);
    ThreeFieldsFree(action, item, IntToString(quantity));
    RouteFields([action, item, IntToString(quantity)]);
  }

  lemma ThreeFieldsFree(first: string, second: string, third: string)
    requires '|' !in first && '|' !in second && '|' !in third
    ensures SeparatorFree([first, second, third])
  {
  }

  /** A written quantity has no separator in it and, within the digit limit, reads back as itself. */
  lemma QuantityRoundTrip(quantity: int)
    requires WithinStrDigits(quantity)
    ensures '|' !in IntToString(quantity)
    ensures ParseInt(IntToString(quantity)) == Some(quantity)
  {
    IntToStringRoundTrip(quantity);
    var digits := NatToString(if quantity < 0 then -quantity else quantity);
    var text := IntToString(quantity);
    forall i | 0 <= i < |text|
      ensures text[i] != '|'
    {
      if quantity < 0 && i > 0 {
        assert text[i] == digits[i - 1];
      }
    }
  }

  /**
   * A quantity field holding anything but whitespace, a sign, digits and
   * underscores (a spelled-out number such as `two`, say) is an error.
   */
  lemma NonNumeralQuantityFails(fields: seq<string>, k: int)
    requires |fields| >= 3
    requires SeparatorFree(fields)
    requires 0 <= k < |fields[2]| && !IsNumeralChar(fields[2][k])
    ensures RouteOf(Join(fields, '|')) == Err(InvalidQuantity(fields[2]))
  {
    RouteFields(fields);
    if ParseInt(fields[2]).Some? {
      ParseIntAlphabet(fields[2]);
    }
  }

  /** A quantity field of more digits than `int()` allows is an error, signed or not. */
  lemma LongQuantityFails(fields: seq<string>, digits: string)
    requires |fields| >= 3
    requires SeparatorFree(fields)
    requires |digits| > MaxStrDigits && AllDigits(digits)
    requires fields[2] == digits || fields[2] == "-" + digits
    ensures RouteOf(Join(fields, '|')) == Err(InvalidQuantity(fields[2]))
  {
    RouteFields(fields);
    TooManyDigitsFail(digits);
  }
}

=== FILE: text.dfy ===
/**
 * The string operations the router and the product search rely on:
 * Python's `str.split(sep)` with an explicit one-character separator and its
 * inverse `sep.join(parts)`, `str.strip()` with Python's notion of
 * whitespace, and the case-insensitive substring test behind the backend's
 * `ilike` name filter.
 */
module Text {

  /** `s.split(sep)`: every occurrence of `sep` cuts; empty pieces are kept. */
  function Split(s: string, sep: char): (parts: seq<string>)
    ensures |parts| >= 1
    ensures sep in s <==> |parts| > 1
    decreases |s|
  {
    if s == [] then [[]]
    else
      assert s == [s[0]] + s[1..];
      var rest := Split(s[1..], sep);
      if s[0] == sep then [[]] + rest
      else [[s[0]] + rest[0]] + rest[1..]
  }

  /** `sep.join(parts)` for a non-empty list of pieces. */
  function Join(parts: seq<string>, sep: char): (s: string)
    requires |parts| >= 1
    decreases |parts|
  {
    if |parts| == 1 then parts[0] else parts[0] + [sep] + Join(parts[1..], sep)
  }

  /** Splitting and joining again gives back the original text. */
  lemma {:induction false} JoinSplit(s: string, sep: char)
    ensures Join(Split(s, sep), sep) == s
    decreases |s|
  {
    if s != [] {
      JoinSplit(s[1..], sep);
      assert s == [s[0]] + s[1..];
    }
  }

  /** No piece produced by `Split` contains the separator. */
  lemma {:induction false} SplitPiecesFree(s: string, sep: char)
    ensures forall i :: 0 <= i < |Split(s, sep)| ==> sep !in Split(s, sep)[i]
    decreases |s|
  {
    if s != [] {
      SplitPiecesFree(s[1..], sep);
      var rest := Split(s[1..], sep);
      if s[0] != sep {
        assert sep !in [s[0]] + rest[0];
      }
    }
  }

  /** Text without the separator is a single piece. */
  lemma {:induction false} SplitWhole(s: string, sep: char)
    requires sep !in s
    ensures Split(s, sep) == [s]
    decreases |s|
  {
    if s != [] {
      SplitWhole(s[1..], sep);
      assert s == [s[0]] + s[1..];
    }
  }

  /** The first piece is exactly the text before the first separator. */
  lemma {:induction false} SplitAtFirst(head: string, sep: char, tail: string)
    requires sep !in head
    ensures Split(head + [sep] + tail, sep) == [head] + Split(tail, sep)
    decreases |head|
  {
    var s := head + [sep] + tail;
    if head == [] {
      assert s[1..] == tail;
    } else {
      assert s[1..] == head[1..] + [sep] + tail;
      SplitAtFirst(head[1..], sep, tail);
      assert [s[0]] + head[1..] == head;
    }
  }

  /** Joining separator-free pieces and splitting again gives back the pieces. */
  lemma {:induction false} SplitJoin(parts: seq<string>, sep: char)
    requires |parts| >= 1
    requires forall i :: 0 <= i < |parts| ==> sep !in parts[i]
    ensures Split(Join(parts, sep), sep) == parts
    decreases |parts|
  {
    if |parts| == 1 {
      SplitWhole(parts[0], sep);
    } else {
      SplitJoin(parts[1..], sep);
      SplitAtFirst(parts[0], sep, Join(parts[1..], sep));
      assert [parts[0]] + parts[1..] == parts;
    }
  }

  /** Python's `str.isspace()` for one character. */
  predicate IsSpace(c: char) {
    || c == ' '
    || '\t' <= c <= '\r'
    || '\U{1C}' <= c <= '\U{1F}'
    || c == '\U{85}' || c == '\U{A0}' || c == '\U{1680}'
    || '\U{2000}' <= c <= '\U{200A}'
    || c == '\U{2028}' || c == '\U{2029}' || c == '\U{202F}'
    || c == '\U{205F}' || c == '\U{3000}'
  }

  function TrimStart(s: string): (r: string)
    ensures |r| <= |s| && r == s[|s| - |r|..]
    ensures forall i :: 0 <= i < |s| - |r| ==> IsSpace(s[i])
    ensures r == [] || !IsSpace(r[0])
    decreases |s|
  {
    if s != [] && IsSpace(s[0]) then TrimStart(s[1..]) else s
  }

  function TrimEnd(s: string): (r: string)
    ensures |r| <= |s| && r == s[..|r|]
    ensures forall i :: |r| <= i < |s| ==> IsSpace(s[i])
    ensures r == [] || !IsSpace(r[|r| - 1])
    decreases |s|
  {
    if s != [] && IsSpace(s[|s| - 1]) then TrimEnd(s[..|s| - 1]) else s
  }

  /** `s.strip()`: the text with leading and trailing whitespace removed. */
  function Strip(s: string): (r: string)
    ensures |r| <= |s|
    ensures r == [] || (!IsSpace(r[0]) && !IsSpace(r[|r| - 1]))
  {
    TrimEnd(TrimStart(s))
  }

  /**
   * `r` is the slice of `s` starting at offset `a`, and every character of
   * `s` outside that slice is whitespace.
   */
  predicate SliceBetweenSpace(s: string, r: string, a: int) {
    && 0 <= a && a + |r| <= |s|
    && r == s[a..a + |r|]
    && (forall i :: 0 <= i < a ==> IsSpace(s[i]))
    && (forall i :: a + |r| <= i < |s| ==> IsSpace(s[i]))
  }

  /** `Strip` keeps one contiguous slice of its input and drops only whitespace around it. */
  lemma StripDropsOnlySpace(s: string)
    ensures exists a :: SliceBetweenSpace(s, Strip(s), a)
  {
    var t := TrimStart(s);
    var r := Strip(s);
    var a := |s| - |t|;
    assert r == t[..|r|];
    assert t == s[a..];
    forall i | a + |r| <= i < |s|
      ensures IsSpace(s[i])
    {
      assert s[i] == t[i - a];
    }
    assert SliceBetweenSpace(s, r, a);
  }

  /** Text that neither starts nor ends with whitespace is left as it is. */
  lemma StripKeeps(s: string)
    requires s == [] || (!IsSpace(s[0]) && !IsSpace(s[|s| - 1]))
    ensures Strip(s) == s
  {
  }

  /** ASCII lower-casing of one character. */
  function Lower(c: char): char {
    if 'A' <= c <= 'Z' then (c as int + 32) as char else c
  }

  function LowerAll(s: string): (r: string)
    ensures |r| == |s|
  {
    seq(|s|, i requires 0 <= i < |s| => Lower(s[i]))
  }

  predicate IsPrefix(p: string, s: string) {
    |p| <= |s| && s[..|p|] == p
  }

  /** `p` occurs somewhere inside `s`. */
  predicate IsInfix(p: string, s: string)
    decreases |s|
  {
    IsPrefix(p, s) || (s != [] && IsInfix(p, s[1..]))
  }

  /** `p` sits in `s` at offset `k`. */
  predicate OccursAt(p: string, s: string, k: int) {
    0 <= k <= |s| - |p| && s[k..k + |p|] == p
  }

  /** `IsInfix` holds exactly when `p` sits at some offset of `s`. */
  lemma {:induction false} IsInfixAt(p: string, s: string)
    ensures IsInfix(p, s) <==> exists k :: OccursAt(p, s, k)
    decreases |s|
  {
    if IsPrefix(p, s) {
      assert OccursAt(p, s, 0);
    } else if s != [] {
      IsInfixAt(p, s[1..]);
      if IsInfix(p, s[1..]) {
        var k :| OccursAt(p, s[1..], k);
        assert s[k + 1..k + 1 + |p|] == s[1..][k..k + |p|];
        assert OccursAt(p, s, k + 1);
      }
      if k :| OccursAt(p, s, k) {
        assert k != 0;
        assert s[1..][k - 1..k - 1 + |p|] == s[k..k + |p|];
        assert OccursAt(p, s[1..], k - 1);
      }
    }
  }

  /** The `ilike` filter: `pattern` occurs in `name`, ignoring ASCII case. */
  predicate Ilike(name: string, pattern: string) {
    IsInfix(LowerAll(pattern), LowerAll(name))
  }

  /** Lower-casing twice is lower-casing once. */
  lemma LowerAllTwice(s: string)
    ensures LowerAll(LowerAll(s)) == LowerAll(s)
  {
    forall i | 0 <= i < |s|
      ensures LowerAll(LowerAll(s))[i] == LowerAll(s)[i]
    {
      var c := s[i];
      assert LowerAll(s)[i] == Lower(c);
    }
  }

  /**
   * The `ilike` filter ignores case on both sides: it matches exactly when
   * the lower-cased pattern sits at some offset of the lower-cased name, and
   * lower-casing either side first changes nothing.
   */
  lemma IlikeIgnoresCase(name: string, pattern: string)
    ensures Ilike(name, pattern) <==> exists k :: OccursAt(LowerAll(pattern), LowerAll(name), k)
    ensures Ilike(name, pattern) == Ilike(LowerAll(name), LowerAll(pattern))
  {
    IsInfixAt(LowerAll(pattern), LowerAll(name));
    LowerAllTwice(name);
    LowerAllTwice(pattern);
  }
}

=== FILE: wrappers.dfy ===
/** Option and Result, the two failure-carrying values the model uses. */
module Wrappers {

  datatype Option<+T> = None | Some(value: T)

  datatype Result<+T, +E> = Ok(value: T) | Err(error: E)
}
